=== FILE: README.md ===
# Protected sections of node.ext.template, in Dafny

`node.ext.template` regenerates text files from templates without losing
what people wrote by hand inside *protected sections*. A protected section
is the run of lines between a begin marker and an end marker that name it:

```
##code-section body
hand-written lines
##/code-section body
```

XML templates use `<!-- code-section body -->` and `<!-- /code-section body -->`
instead. On every run a template object does four things:

1. It reads the existing output file.
2. It produces a fresh buffer. This is either the template file itself, or
   what Jinja or DTML renders from it.
3. It merges the two buffers with `handlesections`. Every section the fresh
   buffer shares with the old file gets the old file's content back.
4. It writes the result.

This project models that core:

- the section engine `CodeSectionHandler` (`sectionnames`, `getsection`,
  `setsection`);
- the merge `handlesections`;
- the line splitting of `execjinja` and `execdtml`;
- the parameter map a template is rendered with;
- the `__call__` pipelines of both copies of the classes. In `template.py`
  the Jinja and DTML classes do nothing while no template is set; the plain
  sectioned class there, and every class in `_api.py`, has no such guard.

Modules, one per file:

| module | file | what it holds |
|---|---|---|
| `Outcomes` | outcomes.dfy | The exceptions the core raises, as an `Error` datatype. Also `Option` and `Result`. |
| `Text` | text.dfy | `find`, substring containment, Python 2's unicode `strip`, `s[:k]` with a `find` result, first and last matching line. |
| `Markers` | markers.dfy | The marker syntax `(SECTION_BEGIN, SECTION_END, SECTION_POSTFIX)`, the two syntaxes in use, the patterns, and how a name is read off a begin line. |
| `Scanner` | scanner.dfy | `sectionnames`, plus a declarative statement of when it succeeds. |
| `Store` | store.dfy | `getsection` and `setsection`, and their round trips. |
| `Merge` | merge.dfy | `handlesections`, split into its two loops. |
| `Layouts` | layouts.dfy | Buffers of a known shape: plain lines, then sections. On them the merge has a closed form and is idempotent. |
| `OneLine` | oneline.dfy | What the engine does with a region whose begin and end marker share one line. |
| `Render` | render.dfy | Parameter precedence, `unicode.split`, and `StringIO.readlines`. |
| `Pipeline` | pipeline.dfy | The file system as a map, `existentbuffer`, `write`, `execjinja`, `execdtml`, and `__call__`. |

Decisions that follow the code rather than a tidier reading of it:

- Markers match anywhere in a line, by substring. A begin marker for
  `a` is therefore also found in a line that begins section `ab`.
- `getsection` reads from the first begin marker above the first end
  marker. `setsection` writes after the last one
  (`Store.TwoBeginsGrow`).
- Without a postfix, the name of a section is the whole stripped rest of
  its begin line. A reader might expect a region whose begin and end
  markers share one line to be valid and empty. In the code it is not:
  - With the default syntax, the name read off such a line swallows the end
    marker, so `sectionnames` raises (`OneLine.DefaultJoinedRaises`).
  - With the XML syntax, `sectionnames` lists such a region and `getsection`
    reads it as empty. But `setsection` raises on it, because its end test
    fires before the begin marker is recorded. Merging an existing section
    into such a region therefore raises (`OneLine.XmlJoinedMergeRaises`).

  The model follows the code in both cases.
- A postfix the rest of the line lacks makes `name[:name.find(postfix)]`
  cut off the last character, because Python reads the index -1 as "all
  but the last". `Text.SliceTo` keeps this behaviour.
- `strip()` removes the characters Python 2's `unicode.isspace` accepts
  (`Text.IsSpace`).

## Model

| member | source | states |
|---|---|---|
| Text.Find | src/node/ext/template/codesectionhandler.py:45-49 | `find` is -1 exactly when the pattern does not occur. Otherwise the pattern occurs at the index returned and at no earlier index. |
| Text.StripInfix | src/node/ext/template/codesectionhandler.py:51-54 | `strip()` returns an infix of the line, and everything around that infix is whitespace. |
| Text.SliceTo | src/node/ext/template/codesectionhandler.py:52 | Slicing by a `find` result keeps a prefix. An index of -1 drops exactly the last character. |
| Markers.BeginOpens | src/node/ext/template/codesectionhandler.py:24-25 | A line that carries the begin pattern of any name carries the begin token. |
| Markers.ExtractName | src/node/ext/template/codesectionhandler.py:44-54 | The name `sectionnames` reads off a begin line has no leading or trailing whitespace. Its value on written markers is stated in `Markers.MarkerNameRoundTrip`. |
| Markers.MarkerNameRoundTrip | src/node/ext/template/codesectionhandler.py:45-55 | Write the begin pattern of a name, with whitespace around it, then read the name back: the original name comes out. The name needs no whitespace at either end and, under a postfix, must be non-empty and have no postfix occurrence starting inside it; inner blanks are allowed (`Markers.Readable`). This holds for any syntax whose tokens are delimited. |
| Markers.SyntaxesDelimited | src/node/ext/template/codesectionhandler.py:19-21 | The default syntax is delimited. So is the XML one set in template.py:158-160. |
| Scanner.SectionNames | src/node/ext/template/codesectionhandler.py:38-60 | `sectionnames` succeeds exactly on well-formed buffers. Well formed means each begin-token line's section is closed, on that line or later, before the next begin-token line. On success it returns the name of every begin-token line, top to bottom, duplicates kept. Otherwise it raises the "end pattern not set" error. |
| Scanner.ScanSucceeds | src/node/ext/template/codesectionhandler.py:44-59 | The scanning loop, from a state with a section left open above, succeeds exactly when two things hold: that section closes before the next begin token, and the rest is well formed. |
| Scanner.NameHasLine | src/node/ext/template/codesectionhandler.py:49-55 | Every listed name was read off some begin-token line. |
| Scanner.EveryNameCloses | src/node/ext/template/codesectionhandler.py:56-59 | In a well-formed buffer some line carries the end marker of every listed name. |
| Store.GetSection | src/node/ext/template/codesectionhandler.py:62-78 | Let `e` be the first line with the end marker. `getsection` returns the lines between the first begin marker above `e` and `e`, markers excluded. It returns nothing when no begin marker is above `e`. It raises "section not found" when there is no end marker. |
| Store.SetSection | src/node/ext/template/codesectionhandler.py:80-100 | Let `e` be the first end marker and `s` the last begin marker above it. `setsection` returns the lines up to and including `s`, then the code, then the lines from `e` on. It raises "start not found" when there is no such `s`, and "section not found" when there is no `e`. |
| Store.SectionGet | src/node/ext/template/codesectionhandler.py:62-78 | For a section with clear lines around it, `getsection` returns exactly its content. |
| Store.SectionSet | src/node/ext/template/codesectionhandler.py:80-100 | For a section with clear lines around it, `setsection` replaces its content and nothing else. |
| Store.SetThenGet | src/node/ext/template/codesectionhandler.py:62-100 | With a single begin marker above the first end marker, and code free of the name's markers, reading after writing returns the code written. |
| Store.GetThenSet | src/node/ext/template/codesectionhandler.py:62-100 | With a single begin marker above the first end marker, writing back what was read leaves the buffer unchanged. |
| Store.TwoBeginsGrow | src/node/ext/template/codesectionhandler.py:67-96 | With two begin markers above the first end marker, writing back what was read makes the buffer longer. |
| Store.SingleLineRegion | src/node/ext/template/codesectionhandler.py:62-100 | Take a line holding both markers of a name, with no marker of that name above it. `getsection` reads the section as empty, and `setsection` raises "start not found". |
| Merge.Preserve | src/node/ext/template/template.py:90-91 | Reading every listed section succeeds exactly when each `getsection` does. The map then holds every listed name, with the value `getsection` gives. Other keys keep their earlier values. |
| Merge.AllSectionsReadable | src/node/ext/template/template.py:89-91 | In a well-formed buffer `getsection` succeeds on every name `sectionnames` lists. |
| Merge.Sections | src/node/ext/template/template.py:88-91 | The first loop of `handlesections` succeeds exactly on a well-formed existent buffer. It then maps each listed name to that name's `getsection`, which is its first occurrence. |
| Merge.Overwrite | src/node/ext/template/template.py:92-95 | The second loop leaves the buffer as it is when no listed name has kept content. It raises only a `setsection` error on a name that is both listed and kept. |
| Merge.HandleSections | src/node/ext/template/template.py:84-96 | `handlesections` raises only the section engine's errors: a missing end marker, a section not found, or a missing start marker. Its result is stated in `Merge.HandleSectionsOutcome` and `Layouts.MergeShape`. |
| Merge.HandleSectionsOutcome | src/node/ext/template/template.py:84-96 | `handlesections` raises when either buffer is malformed. With no section name in common it returns the generated buffer unchanged; an empty existent buffer is one such case. Any other failure is a `setsection` failure on a name both buffers list. |
| Layouts.StructuredNames | src/node/ext/template/codesectionhandler.py:38-60 | On a buffer of plain lines and shaped, uniquely named sections, `sectionnames` lists the section names in order. |
| Layouts.StructuredGetSet | src/node/ext/template/codesectionhandler.py:62-100 | On such a buffer, `getsection` returns a section's content, and `setsection` replaces that content and nothing else. |
| Layouts.MergeShape | src/node/ext/template/template.py:84-96 | For an existent buffer whose sections fit a generated buffer of known shape (`Layouts.Fits`), merging into that buffer succeeds. Each section keeps the existent file's content when that file lists the name, and its generated content otherwise. Every other line is as generated. The result's sections are exactly the generated ones, so sections only the old file had are dropped. |
| Layouts.RemergeFixed | src/node/ext/template/_api.py:66-78 | Merging a buffer that already has the generated frame gives that buffer back. |
| Layouts.MergeTwice | src/node/ext/template/_api.py:66-78 | For any existent buffer whose sections fit the generated buffer, the merge succeeds, and merging its result again changes nothing. |
| Layouts.MergeIdempotent | src/node/ext/template/template.py:84-96 | The same holds when both buffers are structured and the existent contents carry no markers of the generated names. |
| OneLine.JoinedRaises | src/node/ext/template/codesectionhandler.py:49-59 | Without a postfix, a line holding a begin marker and then its end marker makes `sectionnames` raise, unless a later line closes the swallowed name. |
| OneLine.DefaultJoinedRaises | src/node/ext/template/codesectionhandler.py:19-21 | With the default markers, `##code-section X ##/code-section X` makes `sectionnames` raise. |
| OneLine.JoinedListed | src/node/ext/template/codesectionhandler.py:49-57 | With a postfix, such a line on its own is a well-formed buffer that lists its name. |
| OneLine.JoinedMergeRaises | src/node/ext/template/template.py:92-95 | With a postfix, merging a section the existent file has into such a line raises "start not found". |
| OneLine.XmlJoinedMergeRaises | src/node/ext/template/template.py:154-160 | With the XML markers, a one-line region is listed and read as empty, yet merging into it raises. |
| Render.RenderParams | src/node/ext/template/template.py:112-113 | The render map has every user parameter and every built-in. A built-in wins over a user parameter of the same name. The user map is a value and stays unchanged. |
| Render.Split | src/node/ext/template/template.py:118-119 | `split(u"\n")` gives one more piece than there are line feeds, and no piece contains one. |
| Render.SplitJoin | src/node/ext/template/template.py:118-119 | Joining the pieces of a split with the separator gives the text back. |
| Render.JoinSplit | src/node/ext/template/_api.py:96-97 | Splitting separator-free pieces joined by the separator gives the pieces back. |
| Render.JinjaLines | src/node/ext/template/template.py:118-119 | `execjinja` returns one more line than the rendered text has line feeds. Every line ends in a line feed and has no other. |
| Render.JinjaLinesText | src/node/ext/template/_api.py:96-97 | The lines `execjinja` returns, concatenated, are the rendered text plus one line feed. |
| Render.ReadLines | src/node/ext/template/template.py:146 | `readlines` gives non-empty lines. Each has a line feed only at its end, and every line but the last has one. |
| Render.ReadLinesText | src/node/ext/template/_api.py:120 | The lines `readlines` returns, concatenated, are the text. |
| Render.ReadLinesOfText | src/node/ext/template/template.py:146 | Reading lines of that form back from their concatenation gives the same lines. |
| Render.JinjaLinesRead | src/node/ext/template/template.py:118-119 | The lines `execjinja` makes are what `readlines` reads from the rendered text plus a line feed. |
| Pipeline.ExistentBuffer | src/node/ext/template/template.py:50-62 | A file that is not there reads as no lines. |
| Pipeline.WriteThenRead | src/node/ext/template/template.py:64-69 | Reading a written file gives back what was written. Every other file reads as before. |
| Pipeline.TemplateText | src/node/ext/template/template.py:114-116 | Opening an unset template raises. So does opening a missing template file. Otherwise the call gives the file's whole text. |
| Pipeline.ExecJinja | src/node/ext/template/template.py:111-119 | Errors from reading the template and from rendering pass through. On success the lines hold the rendered text, rendered with the combined parameters, plus one line feed, one line per line feed plus one. Each line is non-empty and holds exactly one line feed, at its end. |
| Pipeline.ExecDtml | src/node/ext/template/template.py:134-151 | Errors from reading the template and from rendering pass through. On success the lines hold exactly the rendered text, cut as `readlines` cuts. |
| Pipeline.Generate | src/node/ext/template/_api.py:62-64 | The plain sectioned template's generated buffer is its template file, read like the target. An unset template raises. |
| Pipeline.Call | src/node/ext/template/template.py:104-109 | A call writes only the target. A call that raises writes nothing. It succeeds exactly when generation and merge succeed, and then the target holds the merge. The Jinja and DTML classes of `template.py` do nothing while no template is set. The plain sectioned class raises when the reference is `None`; the empty reference is `Pipeline.EmptyReference`. |
| Pipeline.UnsetTemplate | src/node/ext/template/template.py:127-130 | With no template set, the guarded Jinja and DTML calls do nothing. The unguarded ones from `_api.py` raise. |
| Pipeline.EmptyReference | src/node/ext/template/template.py:80-82 | The plain sectioned class has no guard. With the empty reference it opens the empty path, which fails and reads as no lines, and merges the target into that empty buffer. A well-formed target is then emptied, and a malformed one makes the call raise. |
| Pipeline.FirstRun | src/node/ext/template/template.py:55-61 | With no target file yet, a call writes the generated buffer unchanged when it is well formed, and raises otherwise. |
| Pipeline.CallStable | src/node/ext/template/_api.py:104-106 | When the merge, merged again, is unchanged, a second call leaves the files as the first call left them. |
| Pipeline.CallIdempotent | src/node/ext/template/_api.py:85-87 | Suppose the template file is not the target, the generated buffer has a known shape, and the target's sections fit it. Then calling twice in a row does what calling once does. |

## Left out

- Real file I/O is not modelled: `codecs.open`, UTF-8 decoding and encoding, `os.path.join`, and the node path behind `abspath`. The file system is a map from path to lines, and the target path is a field of the template object.
- Python writes a buffer's concatenation and reads it back with `readlines`. The map stores the line list as is. The two agree whenever every line but the last ends in its only line feed and no line holds another `splitlines` break (`Render.ReadLinesOfText`). Lines without that shape are not re-split on reading.
- The existent file is read through `codecs` `readlines`, which is `unicode.splitlines(True)`. It also breaks lines at `\r`, `\r\n`, `\v`, `\f`, `\x1c` to `\x1e`, `\x85`, U+2028 and U+2029. The model does not re-split stored lines at these characters. `Render.ReadLines` models only the `StringIO.readlines` of `execdtml`, which breaks at the line feed alone.
- Only an `IOError` counts as a missing file in `existentbuffer`. A target that is not valid UTF-8 raises `UnicodeDecodeError` there, and the call aborts. The model has no decoding step, so it reads every unreadable target as missing. A failing `write` is not modelled.
- Paths are compared as strings. Two different strings that name one file (`./t` and `t`, or a symbolic link) are different keys of the map, so a requirement that the template path differ from the target path (`Pipeline.CallIdempotent`) means a different file only when no such aliasing occurs.
- Opening the empty path always fails in Python. The map may hold a file under the empty path, and the model reads it like any other.
- Resolving `package:subpath` template names through `pkg_resources` in `_set_template` is left out, because it calls into installed packages. The template reference is a path or unset.
- The Jinja and DTML engines are a function the caller supplies. Compiling and rendering both happen inside it, and its failure passes through as the call's exception. The `print` diagnostic before DTML's re-raise is left out.
- `execdtml` opens the template with plain `open`, so its lines are byte strings while the existent file's lines are decoded text. On byte strings `strip()` removes only ASCII whitespace, and a name with non-ASCII characters never equals the decoded name it is looked up by. The model treats both buffers as one kind of text.
- `ZPTemplate`, the node/plumber/zope.interface plumbing, `__repr__`, interfaces.py, `__init__.py` and setup.py are left out. None of them takes part in the section engine or the merge.
- Merge.Overwrite: its own contract states the identity case and which errors it can raise, not the buffer it returns in general. A later `setsection` can change an earlier section when names nest or repeat, so no simple general statement holds. For structured buffers the result is stated by `Layouts.OverwriteLayout` and `Layouts.MergeShape`.
- Merge.HandleSections: its own contract states only which errors it can raise. Its behaviour is stated in `Merge.HandleSectionsOutcome` and `Layouts.MergeShape`, kept out of the function so proofs that mention the function stay small.
- Store.SetFrom: its own contract states only which errors it can raise. Its result is stated by the predicate `Store.SetOutcome` through the lemma `Store.SetFromResult`, and summed up in `Store.SetSection`.
- Markers.ExtractName: its own contract states only that the name has no surrounding whitespace. Its value on written markers is stated in `Markers.MarkerNameRoundTrip` and in the `OneLine` lemmas.
- Merge idempotence is proved for generated buffers of a known shape (`Layouts.Structured`). That shape is plain lines, then sections with unique names whose lines carry no markers of the other sections. Buffers with duplicate or nested names are outside that lemma.

=== FILE: layouts.dfy ===
/** Buffers with a known shape: plain lines, then protected sections, each
    followed by plain lines. On such buffers `sectionnames`, `getsection`,
    `setsection` and `handlesections` have a closed form, from which the
    merge's guarantees (hand-edited content kept, template defaults kept for
    new sections, sections gone from the template dropped, idempotence) follow. */
module Layouts {

  import opened Outcomes
  import opened Text
  import opened Markers
  import opened Scanner
  import opened Store
  import opened Merge

  /** One protected section as it sits in a buffer: its begin line, its
      content, its end line and the plain lines up to the next section. */
  datatype Region = Region(name: string, begin: Line, content: Lines, end: Line, after: Lines)

  /** A buffer seen as plain lines followed by sections. */
  datatype Layout = Layout(head: Lines, regions: seq<Region>)

  function Block(r: Region): Lines {
    [r.begin] + r.content + [r.end] + r.after
  }

  function Blocks(rs: seq<Region>): Lines {
    if |rs| == 0 then [] else Block(rs[0]) + Blocks(rs[1..])
  }

  /** The buffer a layout describes. */
  function Flatten(l: Layout): Lines {
    l.head + Blocks(l.regions)
  }

  /** The section names, top to bottom. */
  function Names(rs: seq<Region>): seq<string> {
    seq(|rs|, i requires 0 <= i < |rs| => rs[i].name)
  }

  /** A line that opens no section and closes none of the named ones. */
  predicate Plain(syn: Syntax, line: Line, names: seq<string>) {
    !OpensSection(syn, line) && forall m :: m in names ==> !IsEnd(syn, line, m)
  }

  predicate AllPlain(syn: Syntax, lines: Lines, names: seq<string>) {
    forall k :: 0 <= k < |lines| ==> Plain(syn, lines[k], names)
  }

  predicate NoneOpens(syn: Syntax, lines: Lines) {
    forall k :: 0 <= k < |lines| ==> !OpensSection(syn, lines[k])
  }

  /** The begin line opens the region's section, carries its begin marker and
      not its end marker; the content neither opens a section nor closes this
      one; the end line closes it and opens nothing; the lines after open nothing. */
  predicate Shaped(syn: Syntax, r: Region) {
    && OpensSection(syn, r.begin) && ExtractName(syn, r.begin) == r.name
    && IsBegin(syn, r.begin, r.name) && !IsEnd(syn, r.begin, r.name)
    && AllPlain(syn, r.content, [r.name])
    && !OpensSection(syn, r.end) && IsEnd(syn, r.end, r.name)
    && NoneOpens(syn, r.after)
  }

  /** Region `i` is shaped. */
  predicate ShapedAt(syn: Syntax, rs: seq<Region>, i: int)
    requires 0 <= i < |rs|
  {
    Shaped(syn, rs[i])
  }

  /** The block of region `i` carries no marker of the name of region `j`. */
  predicate Apart(syn: Syntax, rs: seq<Region>, i: int, j: int)
    requires 0 <= i < |rs| && 0 <= j < |rs|
  {
    i != j ==> Clear(syn, Block(rs[i]), rs[j].name)
  }

  /** No two regions share a name. */
  predicate DistinctNames(rs: seq<Region>) {
    forall i, j :: 0 <= i < j < |rs| ==> rs[i].name != rs[j].name
  }

  /** A layout whose sections are shaped, uniquely named, free of each
      other's markers, and whose head lines are plain. */
  predicate Structured(syn: Syntax, l: Layout) {
    && AllPlain(syn, l.head, Names(l.regions))
    && DistinctNames(l.regions)
    && (forall i :: 0 <= i < |l.regions| ==> ShapedAt(syn, l.regions, i))
    && (forall i, j :: 0 <= i < |l.regions| && 0 <= j < |l.regions| ==> Apart(syn, l.regions, i, j))
  }

  /** The layout with the content of region `i` replaced. */
  function WithContent(l: Layout, i: nat, code: Lines): (m: Layout)
    requires i < |l.regions|
    ensures m.head == l.head && |m.regions| == |l.regions|
    ensures m.regions[i] == l.regions[i].(content := code)
    ensures forall j :: 0 <= j < |l.regions| && j != i ==> m.regions[j] == l.regions[j]
  {
    l.(regions := l.regions[i := l.regions[i].(content := code)])
  }

  /** The layout with the content of every region named in `names` that has
      an entry in `sections` replaced by that entry. */
  function Overlay(l: Layout, sections: map<string, Lines>, names: seq<string>): (m: Layout)
    ensures m.head == l.head && |m.regions| == |l.regions|
    ensures forall i :: 0 <= i < |l.regions| ==>
      m.regions[i] == if l.regions[i].name in names && l.regions[i].name in sections
                      then l.regions[i].(content := sections[l.regions[i].name])
                      else l.regions[i]
  {
    var rs := l.regions;
    l.(regions := seq(|rs|, i requires 0 <= i < |rs| =>
                        if rs[i].name in names && rs[i].name in sections
                        then rs[i].(content := sections[rs[i].name]) else rs[i]))
  }

  // ----- small facts ---------------------------------------------------------

  lemma {:induction false} ClearConcat(syn: Syntax, a: Lines, b: Lines, name: string)
    ensures Clear(syn, a + b, name) <==> Clear(syn, a, name) && Clear(syn, b, name)
  {
    if Clear(syn, a, name) && Clear(syn, b, name) {
      forall k | 0 <= k < |a + b|
        ensures !IsBegin(syn, (a + b)[k], name) && !IsEnd(syn, (a + b)[k], name)
      {
        if k >= |a| {
          assert (a + b)[k] == b[k - |a|];
        }
      }
    }
    if Clear(syn, a + b, name) {
      assert forall k :: 0 <= k < |a| ==> a[k] == (a + b)[k];
      assert forall k :: 0 <= k < |b| ==> b[k] == (a + b)[|a| + k];
    }
  }

  /** Plain lines carry no marker of a listed name. */
  lemma {:induction false} PlainClear(syn: Syntax, lines: Lines, names: seq<string>, m: string)
    requires AllPlain(syn, lines, names) && m in names
    ensures Clear(syn, lines, m)
  {
    forall k | 0 <= k < |lines|
      ensures !IsBegin(syn, lines[k], m)
    {
      if IsBegin(syn, lines[k], m) {
        BeginOpens(syn, lines[k], m);
      }
    }
  }

  /** The content of a shaped region carries no marker of its own name. */
  lemma {:induction false} ContentClear(syn: Syntax, r: Region)
    requires Shaped(syn, r)
    ensures Clear(syn, r.content, r.name)
  {
    PlainClear(syn, r.content, [r.name], r.name);
  }

  /** A listed name belongs to some region. */
  lemma {:induction false} NameIndex(rs: seq<Region>, n: string) returns (i: nat)
    requires n in Names(rs)
    ensures i < |rs| && rs[i].name == n
  {
    var k :| 0 <= k < |rs| && Names(rs)[k] == n;
    i := k;
  }

  lemma {:induction false} NamesTail(rs: seq<Region>)
    requires |rs| > 0
    ensures Names(rs) == [rs[0].name] + Names(rs[1..])
  {
  }

  /** In a structured layout, every content line is plain with respect to every name. */
  lemma {:induction false} ContentPlain(syn: Syntax, l: Layout, i: nat)
    requires Structured(syn, l) && i < |l.regions|
    ensures AllPlain(syn, l.regions[i].content, Names(l.regions))
  {
    var r := l.regions[i];
    var names := Names(l.regions);
    assert ShapedAt(syn, l.regions, i);
    forall k | 0 <= k < |r.content|
      ensures Plain(syn, r.content[k], names)
    {
      assert Plain(syn, r.content[k], [r.name]);
      forall m | m in names
        ensures !IsEnd(syn, r.content[k], m)
      {
        var j :| 0 <= j < |l.regions| && names[j] == m;
        if j != i {
          assert Apart(syn, l.regions, i, j);
          assert Block(r) == [r.begin] + r.content + ([r.end] + r.after);
          ClearConcat(syn, [r.begin] + r.content, [r.end] + r.after, m);
          ClearConcat(syn, [r.begin], r.content, m);
        }
      }
    }
  }

  // ----- sectionnames on a layout ---------------------------------------------

  /** Lines that open nothing, and do not close the open section, are passed over. */
  lemma {:induction false} ScanSkip(syn: Syntax, pre: Lines, rest: Lines, open: Option<string>)
    requires NoneOpens(syn, pre)
    requires open.Some? ==> forall k :: 0 <= k < |pre| ==> !IsEnd(syn, pre[k], open.value)
    ensures Scan(syn, pre + rest, open) == Scan(syn, rest, open)
    decreases |pre|
  {
    if |pre| == 0 {
      assert pre + rest == rest;
    } else {
      assert (pre + rest)[0] == pre[0];
      assert (pre + rest)[1..] == pre[1..] + rest;
      ScanSkip(syn, pre[1..], rest, open);
    }
  }

  /** The scan result with `name` put in front. */
  function Prefixed(name: string, t: Result<seq<string>>): Result<seq<string>> {
    if t.Fail? then t else Ok([name] + t.value)
  }

  /** A line opening section `name` without closing it leaves `name` open. */
  lemma {:induction false} ScanOpening(syn: Syntax, line: Line, rest: Lines, name: string)
    requires OpensSection(syn, line) && ExtractName(syn, line) == name && !IsEnd(syn, line, name)
    ensures Scan(syn, [line] + rest, None) == Prefixed(name, Scan(syn, rest, Some(name)))
  {
    assert ([line] + rest)[1..] == rest;
  }

  /** A line closing the open section `name`, and opening none, closes it. */
  lemma {:induction false} ScanClosing(syn: Syntax, line: Line, rest: Lines, name: string)
    requires !OpensSection(syn, line) && IsEnd(syn, line, name)
    ensures Scan(syn, [line] + rest, Some(name)) == Scan(syn, rest, None)
  {
    assert ([line] + rest)[1..] == rest;
  }

  /** Inside a shaped region the content is passed over and the end line
      closes the section. */
  lemma {:induction false} ScanRegionBody(syn: Syntax, r: Region, rest: Lines)
    requires Shaped(syn, r)
    ensures Scan(syn, r.content + ([r.end] + (r.after + rest)), Some(r.name)) == Scan(syn, r.after + rest, None)
  {
    var tail := r.after + rest;
    forall k | 0 <= k < |r.content|
      ensures !OpensSection(syn, r.content[k]) && !IsEnd(syn, r.content[k], r.name)
    {
      assert Plain(syn, r.content[k], [r.name]);
    }
    ScanSkip(syn, r.content, [r.end] + tail, Some(r.name));
    ScanClosing(syn, r.end, tail, r.name);
  }

  /** A block followed by more lines, regrouped line by line. */
  lemma {:induction false} BlockThen(r: Region, rest: Lines)
    ensures Block(r) + rest == [r.begin] + (r.content + ([r.end] + (r.after + rest)))
  {
  }

  /** A shaped region is scanned as its one name. */
  lemma {:induction false} ScanRegion(syn: Syntax, r: Region, rest: Lines)
    requires Shaped(syn, r)
    ensures Scan(syn, [r.begin] + (r.content + ([r.end] + (r.after + rest))), None)
      == Prefixed(r.name, Scan(syn, r.after + rest, None))
  {
    ScanOpening(syn, r.begin, r.content + ([r.end] + (r.after + rest)), r.name);
    ScanRegionBody(syn, r, rest);
  }

  lemma {:induction false} ScanBlocks(syn: Syntax, pre: Lines, rs: seq<Region>)
    requires NoneOpens(syn, pre)
    requires forall j :: 0 <= j < |rs| ==> ShapedAt(syn, rs, j)
    ensures Scan(syn, pre + Blocks(rs), None) == Ok(Names(rs))
    decreases |rs|
  {
    ScanSkip(syn, pre, Blocks(rs), None);
    if |rs| > 0 {
      var r := rs[0];
      assert ShapedAt(syn, rs, 0);
      BlockThen(r, Blocks(rs[1..]));
      ScanRegion(syn, r, Blocks(rs[1..]));
      forall j | 0 <= j < |rs[1..]|
        ensures ShapedAt(syn, rs[1..], j)
      {
        assert ShapedAt(syn, rs, j + 1);
      }
      ScanBlocks(syn, r.after, rs[1..]);
      NamesTail(rs);
    } else {
      assert Blocks(rs) == [];
      assert Scan(syn, [], None) == Ok([]);
      assert Names(rs) == [];
    }
  }

  /** A structured layout is well formed and lists exactly its region names. */
  lemma {:induction false} StructuredNames(syn: Syntax, l: Layout)
    requires Structured(syn, l)
    ensures SectionNames(syn, Flatten(l)) == Ok(Names(l.regions))
    ensures WellFormed(syn, Flatten(l))
    ensures BeginNames(syn, Flatten(l)) == Names(l.regions)
  {
    ScanBlocks(syn, l.head, l.regions);
  }

  // ----- getsection / setsection on a layout ------------------------------------

  /** The blocks of two region lists laid end to end. */
  lemma {:induction false} BlocksConcat(a: seq<Region>, b: seq<Region>)
    ensures Blocks(a + b) == Blocks(a) + Blocks(b)
    decreases |a|
  {
    if |a| == 0 {
      assert a + b == b;
    } else {
      assert (a + b)[0] == a[0];
      assert (a + b)[1..] == a[1..] + b;
      BlocksConcat(a[1..], b);
    }
  }

  /** Blocks each clear of `n` are clear of `n` together. */
  lemma {:induction false} BlocksClear(syn: Syntax, rs: seq<Region>, n: string)
    requires forall j :: 0 <= j < |rs| ==> Clear(syn, Block(rs[j]), n)
    ensures Clear(syn, Blocks(rs), n)
    decreases |rs|
  {
    if |rs| > 0 {
      assert forall j :: 0 <= j < |rs[1..]| ==> Clear(syn, Block(rs[1..][j]), n) by {
        forall j | 0 <= j < |rs[1..]|
          ensures Clear(syn, Block(rs[1..][j]), n)
        {
          assert rs[1..][j] == rs[j + 1];
        }
      }
      BlocksClear(syn, rs[1..], n);
      assert Clear(syn, Block(rs[0]), n);
      ClearConcat(syn, Block(rs[0]), Blocks(rs[1..]), n);
    }
  }

  /** The buffer of `pre` and the blocks, cut around region `i`. */
  lemma {:induction false} BlocksAround(pre: Lines, rs: seq<Region>, i: nat)
    requires i < |rs|
    ensures pre + Blocks(rs)
      == (pre + Blocks(rs[..i])) + [rs[i].begin] + rs[i].content + [rs[i].end] + (rs[i].after + Blocks(rs[i + 1..]))
  {
    var r := rs[i];
    var front, back := Blocks(rs[..i]), Blocks(rs[i + 1..]);
    assert Blocks(rs) == front + Blocks(rs[i..]) by {
      assert rs == rs[..i] + rs[i..];
      BlocksConcat(rs[..i], rs[i..]);
    }
    assert Blocks(rs[i..]) == Block(r) + back by {
      assert rs[i..][0] == r && rs[i..][1..] == rs[i + 1..];
    }
    Regroup(pre, front, [r.begin], r.content, [r.end], r.after, back);
  }

  lemma {:induction false} Regroup(pre: Lines, front: Lines, b: Lines, c: Lines, e: Lines, a: Lines, back: Lines)
    ensures pre + (front + (b + c + e + a + back)) == (pre + front) + b + c + e + (a + back)
  {
  }

  /** The lines in front of region `i` carry no marker of its name. */
  lemma {:induction false} FrontClear(syn: Syntax, pre: Lines, rs: seq<Region>, i: nat)
    requires i < |rs|
    requires Clear(syn, pre, rs[i].name)
    requires forall j :: 0 <= j < i ==> Clear(syn, Block(rs[j]), rs[i].name)
    ensures Clear(syn, pre + Blocks(rs[..i]), rs[i].name)
  {
    var n := rs[i].name;
    assert forall j :: 0 <= j < |rs[..i]| ==> Clear(syn, Block(rs[..i][j]), n) by {
      forall j | 0 <= j < |rs[..i]|
        ensures Clear(syn, Block(rs[..i][j]), n)
      {
        assert rs[..i][j] == rs[j];
      }
    }
    BlocksClear(syn, rs[..i], n);
    ClearConcat(syn, pre, Blocks(rs[..i]), n);
  }

  /** Region `i` behind lines free of its markers is the section of its name. */
  lemma {:induction false} RegionAt(syn: Syntax, pre: Lines, rs: seq<Region>, i: nat)
    requires i < |rs| && Shaped(syn, rs[i])
    requires Clear(syn, pre, rs[i].name)
    requires forall j :: 0 <= j < i ==> Clear(syn, Block(rs[j]), rs[i].name)
    ensures SectionAt(syn, pre + Blocks(rs[..i]), rs[i].begin, rs[i].content, rs[i].end, rs[i].name)
  {
    FrontClear(syn, pre, rs, i);
    ContentClear(syn, rs[i]);
  }

  /** `getsection` reads the content of region `i` when nothing in front of
      it carries its markers. */
  lemma {:induction false} BlocksGet(syn: Syntax, pre: Lines, rs: seq<Region>, i: nat)
    requires i < |rs| && Shaped(syn, rs[i])
    requires Clear(syn, pre, rs[i].name)
    requires forall j :: 0 <= j < i ==> Clear(syn, Block(rs[j]), rs[i].name)
    ensures GetSection(syn, pre + Blocks(rs), rs[i].name) == Ok(rs[i].content)
  {
    var r := rs[i];
    var x := pre + Blocks(rs[..i]);
    assert SectionAt(syn, x, r.begin, r.content, r.end, r.name) by {
      RegionAt(syn, pre, rs, i);
    }
    assert pre + Blocks(rs) == x + [r.begin] + r.content + [r.end] + (r.after + Blocks(rs[i + 1..])) by {
      BlocksAround(pre, rs, i);
    }
    SectionGet(syn, x, r.begin, r.content, r.end, r.after + Blocks(rs[i + 1..]), r.name);
  }

  /** `setsection` replaces the content of region `i`, and nothing else, when
      nothing in front of it carries its markers. */
  lemma {:induction false} BlocksSet(syn: Syntax, pre: Lines, rs: seq<Region>, i: nat, code: Lines)
    requires i < |rs| && Shaped(syn, rs[i])
    requires Clear(syn, pre, rs[i].name)
    requires forall j :: 0 <= j < i ==> Clear(syn, Block(rs[j]), rs[i].name)
    ensures SetSection(syn, pre + Blocks(rs), rs[i].name, code)
      == Ok(pre + Blocks(rs[i := rs[i].(content := code)]))
  {
    var r := rs[i];
    var rs' := rs[i := r.(content := code)];
    var x := pre + Blocks(rs[..i]);
    var y := r.after + Blocks(rs[i + 1..]);
    assert SectionAt(syn, x, r.begin, r.content, r.end, r.name) by {
      RegionAt(syn, pre, rs, i);
    }
    assert pre + Blocks(rs) == x + [r.begin] + r.content + [r.end] + y by {
      BlocksAround(pre, rs, i);
    }
    assert pre + Blocks(rs') == x + [r.begin] + code + [r.end] + y by {
      BlocksAround(pre, rs', i);
      assert rs'[..i] == rs[..i] && rs'[i + 1..] == rs[i + 1..];
    }
    SectionSet(syn, x, r.begin, r.content, r.end, y, r.name, code);
  }

  /** On a structured layout `getsection` of a region's name reads its
      content, and `setsection` replaces that content and nothing else. */
  lemma {:induction false} StructuredGetSet(syn: Syntax, l: Layout, i: nat, code: Lines)
    requires Structured(syn, l) && i < |l.regions|
    ensures GetSection(syn, Flatten(l), l.regions[i].name) == Ok(l.regions[i].content)
    ensures SetSection(syn, Flatten(l), l.regions[i].name, code) == Ok(Flatten(WithContent(l, i, code)))
  {
    var rs := l.regions;
    assert Names(rs)[i] == rs[i].name;
    PlainClear(syn, l.head, Names(rs), rs[i].name);
    assert ShapedAt(syn, rs, i);
    forall j | 0 <= j < i
      ensures Clear(syn, Block(rs[j]), rs[i].name)
    {
      assert Apart(syn, rs, j, i);
    }
    BlocksGet(syn, l.head, rs, i);
    BlocksSet(syn, l.head, rs, i, code);
  }

  /** A block whose content is replaced by lines clear of `n` stays clear of `n`. */
  lemma {:induction false} ReplacedBlockClear(syn: Syntax, r: Region, code: Lines, n: string)
    requires Clear(syn, Block(r), n) && Clear(syn, code, n)
    ensures Clear(syn, Block(r.(content := code)), n)
  {
    assert Block(r) == [r.begin] + r.content + ([r.end] + r.after);
    ClearConcat(syn, [r.begin] + r.content, [r.end] + r.after, n);
    ClearConcat(syn, [r.begin], r.content, n);
    ClearConcat(syn, [r.begin], code, n);
    assert Block(r.(content := code)) == [r.begin] + code + ([r.end] + r.after);
    ClearConcat(syn, [r.begin] + code, [r.end] + r.after, n);
  }

  /** Replacing a content by plain lines keeps the layout structured. */
  lemma {:induction false} WithContentStructured(syn: Syntax, l: Layout, i: nat, code: Lines)
    requires Structured(syn, l) && i < |l.regions|
    requires AllPlain(syn, code, Names(l.regions))
    ensures Names(WithContent(l, i, code).regions) == Names(l.regions)
    ensures Structured(syn, WithContent(l, i, code))
  {
    var rs := l.regions;
    var ms := WithContent(l, i, code).regions;
    var r := rs[i];
    assert Names(ms) == Names(rs);
    assert AllPlain(syn, ms[i].content, [ms[i].name]) by {
      assert Names(rs)[i] == r.name;
      forall k | 0 <= k < |code|
        ensures Plain(syn, code[k], [r.name])
      {
        assert Plain(syn, code[k], Names(rs));
      }
    }
    assert forall a :: 0 <= a < |ms| ==> ShapedAt(syn, ms, a) by {
      forall a | 0 <= a < |ms|
        ensures ShapedAt(syn, ms, a)
      {
        assert ShapedAt(syn, rs, a);
      }
    }
    assert forall a, b :: 0 <= a < |ms| && 0 <= b < |ms| ==> Apart(syn, ms, a, b) by {
      forall a, b | 0 <= a < |ms| && 0 <= b < |ms|
        ensures Apart(syn, ms, a, b)
      {
        assert Apart(syn, rs, a, b);
        if a != b && a == i {
          ReplacedApart(syn, rs, i, b, code);
        }
      }
    }
  }

  /** The replaced block stays clear of the other regions' markers. */
  lemma {:induction false} ReplacedApart(syn: Syntax, rs: seq<Region>, i: nat, b: nat, code: Lines)
    requires i < |rs| && b < |rs| && i != b
    requires Apart(syn, rs, i, b)
    requires AllPlain(syn, code, Names(rs))
    ensures Clear(syn, Block(rs[i].(content := code)), rs[b].name)
  {
    assert Names(rs)[b] == rs[b].name;
    PlainClear(syn, code, Names(rs), rs[b].name);
    ReplacedBlockClear(syn, rs[i], code, rs[b].name);
  }

  // ----- handlesections on a layout ---------------------------------------------

  /** The second loop of `handlesections` on a structured layout replaces the
      content of each listed region that has a kept entry, and nothing else. */
  lemma {:induction false} OverwriteLayout(syn: Syntax, l: Layout, names: seq<string>, sections: map<string, Lines>)
    requires Structured(syn, l)
    requires forall n :: n in names ==> n in Names(l.regions)
    requires forall n :: n in names && n in sections ==> AllPlain(syn, sections[n], Names(l.regions))
    ensures Overwrite(syn, Flatten(l), names, sections) == Ok(Flatten(Overlay(l, sections, names)))
    decreases |names|
  {
    var rs := l.regions;
    if |names| == 0 {
      assert Overlay(l, sections, names) == l;
    } else {
      var n := names[0];
      var target := Overlay(l, sections, names);
      if n in sections {
        var i := NameIndex(rs, n);
        var l1 := WithContent(l, i, sections[n]);
        assert SetSection(syn, Flatten(l), n, sections[n]) == Ok(Flatten(l1)) by {
          StructuredGetSet(syn, l, i, sections[n]);
        }
        assert Structured(syn, l1) && Names(l1.regions) == Names(l.regions) by {
          WithContentStructured(syn, l, i, sections[n]);
        }
        assert Overwrite(syn, Flatten(l1), names[1..], sections) == Ok(Flatten(Overlay(l1, sections, names[1..]))) by {
          OverwriteLayout(syn, l1, names[1..], sections);
        }
        assert Overlay(l1, sections, names[1..]) == target by {
          OverlayStep(l, i, names, sections);
        }
      } else {
        assert Overwrite(syn, Flatten(l), names, sections) == Overwrite(syn, Flatten(l), names[1..], sections);
        OverwriteLayout(syn, l, names[1..], sections);
        assert Overlay(l, sections, names[1..]).regions == target.regions;
      }
    }
  }

  /** Overlaying the first name by hand and the rest by `Overlay` overlays them all. */
  lemma {:induction false} OverlayStep(l: Layout, i: nat, names: seq<string>, sections: map<string, Lines>)
    requires DistinctNames(l.regions)
    requires |names| > 0 && i < |l.regions| && l.regions[i].name == names[0] && names[0] in sections
    ensures Overlay(WithContent(l, i, sections[names[0]]), sections, names[1..]) == Overlay(l, sections, names)
  {
    var rs := l.regions;
    var target := Overlay(l, sections, names);
    var got := Overlay(WithContent(l, i, sections[names[0]]), sections, names[1..]);
    forall j | 0 <= j < |rs|
      ensures got.regions[j] == target.regions[j]
    {
      if j != i && rs[j].name == names[0] {
        assert false;
      }
    }
    assert got.regions == target.regions;
  }

  /** The sections kept from a structured layout: each region's content under its name. */
  lemma {:induction false} SectionsOfLayout(syn: Syntax, l: Layout)
    requires Structured(syn, l)
    ensures Sections(syn, Flatten(l)).Ok?
    ensures Sections(syn, Flatten(l)).value.Keys == NameSet(Names(l.regions))
    ensures forall i :: 0 <= i < |l.regions| ==>
      l.regions[i].name in Sections(syn, Flatten(l)).value
      && Sections(syn, Flatten(l)).value[l.regions[i].name] == l.regions[i].content
  {
    var rs := l.regions;
    StructuredNames(syn, l);
    var kept := Sections(syn, Flatten(l)).value;
    forall i | 0 <= i < |rs|
      ensures rs[i].name in kept && kept[rs[i].name] == rs[i].content
    {
      assert Names(rs)[i] == rs[i].name;
      StructuredGetSet(syn, l, i, []);
    }
  }

  /** What every region of the generated layout holds after the merge: the
      existent buffer's section of that name if it has one, else the
      template's default content. */
  function Kept(syn: Syntax, existent: Lines, g: Layout): Layout
    requires WellFormed(syn, existent)
  {
    Overlay(g, Sections(syn, existent).value, Names(g.regions))
  }

  /** Every section the existent buffer would carry into `g` can be read and
      is plain with respect to `g`'s names, so it cannot fake a marker there. */
  predicate Fits(syn: Syntax, existent: Lines, g: Layout) {
    && WellFormed(syn, existent)
    && forall n :: n in Names(g.regions) && n in BeginNames(syn, existent) ==>
         GetSection(syn, existent, n).Ok? && AllPlain(syn, GetSection(syn, existent, n).value, Names(g.regions))
  }

  lemma {:induction false} KeptSectionsPlain(syn: Syntax, existent: Lines, g: Layout)
    requires Fits(syn, existent, g)
    ensures var kept := Sections(syn, existent).value;
      forall n :: n in Names(g.regions) && n in kept ==> AllPlain(syn, kept[n], Names(g.regions))
  {
    var kept := Sections(syn, existent).value;
    forall n | n in Names(g.regions) && n in kept
      ensures AllPlain(syn, kept[n], Names(g.regions))
    {
      assert n in NameSet(BeginNames(syn, existent));
    }
  }

  lemma {:induction false} MergeResult(syn: Syntax, existent: Lines, g: Layout)
    requires Structured(syn, g) && Fits(syn, existent, g)
    ensures HandleSections(syn, existent, Flatten(g)) == Ok(Flatten(Kept(syn, existent, g)))
  {
    StructuredNames(syn, g);
    KeptSectionsPlain(syn, existent, g);
    OverwriteLayout(syn, g, Names(g.regions), Sections(syn, existent).value);
  }

  lemma {:induction false} KeptShape(syn: Syntax, existent: Lines, g: Layout)
    requires Structured(syn, g) && Fits(syn, existent, g)
    ensures Names(Kept(syn, existent, g).regions) == Names(g.regions)
    ensures Structured(syn, Kept(syn, existent, g))
  {
    KeptSectionsPlain(syn, existent, g);
    KeptStructured(syn, g, Sections(syn, existent).value);
  }

  lemma {:induction false} KeptContents(syn: Syntax, existent: Lines, g: Layout)
    requires Structured(syn, g) && Fits(syn, existent, g)
    ensures forall i :: 0 <= i < |g.regions| ==>
      GetSection(syn, Flatten(Kept(syn, existent, g)), g.regions[i].name)
        == Ok(if g.regions[i].name in BeginNames(syn, existent)
              then GetSection(syn, existent, g.regions[i].name).value
              else g.regions[i].content)
  {
    var m := Kept(syn, existent, g);
    var kept := Sections(syn, existent).value;
    KeptShape(syn, existent, g);
    forall i | 0 <= i < |g.regions|
      ensures GetSection(syn, Flatten(m), g.regions[i].name)
        == Ok(if g.regions[i].name in BeginNames(syn, existent)
              then GetSection(syn, existent, g.regions[i].name).value
              else g.regions[i].content)
    {
      var n := g.regions[i].name;
      assert Names(g.regions)[i] == n;
      assert n in kept <==> n in NameSet(BeginNames(syn, existent));
      StructuredGetSet(syn, m, i, []);
    }
  }

  /** `handlesections` on a generated buffer of known shape: the result is the
      generated buffer with each section whose name the existent buffer also
      lists holding the existent content, every other section holding its
      generated content, every other line as generated; its sections are
      exactly the generated ones, so sections only the existent buffer had
      are dropped. */
  lemma {:induction false} MergeShape(syn: Syntax, existent: Lines, g: Layout)
    requires Structured(syn, g)
    requires Fits(syn, existent, g)
    ensures HandleSections(syn, existent, Flatten(g)) == Ok(Flatten(Kept(syn, existent, g)))
    ensures Structured(syn, Kept(syn, existent, g))
    ensures SectionNames(syn, Flatten(Kept(syn, existent, g))) == Ok(Names(g.regions))
    ensures forall i :: 0 <= i < |g.regions| ==>
      GetSection(syn, Flatten(Kept(syn, existent, g)), g.regions[i].name)
        == Ok(if g.regions[i].name in BeginNames(syn, existent)
              then GetSection(syn, existent, g.regions[i].name).value
              else g.regions[i].content)
  {
    MergeResult(syn, existent, g);
    KeptShape(syn, existent, g);
    StructuredNames(syn, Kept(syn, existent, g));
    KeptContents(syn, existent, g);
  }

  /** Overlaying plain contents keeps a layout structured. */
  lemma {:induction false} KeptStructured(syn: Syntax, g: Layout, sections: map<string, Lines>)
    requires Structured(syn, g)
    requires forall n :: n in Names(g.regions) && n in sections ==> AllPlain(syn, sections[n], Names(g.regions))
    ensures Names(Overlay(g, sections, Names(g.regions)).regions) == Names(g.regions)
    ensures Structured(syn, Overlay(g, sections, Names(g.regions)))
  {
    OverwriteLayout(syn, g, Names(g.regions), sections);
    KeptStructuredFrom(syn, g, sections, Names(g.regions));
  }

  lemma {:induction false} KeptStructuredFrom(syn: Syntax, l: Layout, sections: map<string, Lines>, names: seq<string>)
    requires Structured(syn, l)
    requires forall n :: n in names ==> n in Names(l.regions)
    requires forall n :: n in names && n in sections ==> AllPlain(syn, sections[n], Names(l.regions))
    ensures Names(Overlay(l, sections, names).regions) == Names(l.regions)
    ensures Structured(syn, Overlay(l, sections, names))
    decreases |names|
  {
    var rs := l.regions;
    var target := Overlay(l, sections, names);
    if |names| == 0 {
      assert target == l;
    } else {
      var n := names[0];
      if n in sections {
        var i := NameIndex(rs, n);
        WithContentStructured(syn, l, i, sections[n]);
        var l1 := WithContent(l, i, sections[n]);
        KeptStructuredFrom(syn, l1, sections, names[1..]);
        var got := Overlay(l1, sections, names[1..]);
        forall j | 0 <= j < |rs|
          ensures got.regions[j] == target.regions[j]
        {
          if j != i && rs[j].name == n {
            assert false;
          }
        }
        assert got == target;
      } else {
        KeptStructuredFrom(syn, l, sections, names[1..]);
        assert Overlay(l, sections, names[1..]) == target;
      }
    }
  }

  /** `m` differs from `g` in section contents at most. */
  predicate SameFrame(m: Layout, g: Layout) {
    && m.head == g.head && |m.regions| == |g.regions|
    && forall i :: 0 <= i < |g.regions| ==> m.regions[i] == g.regions[i].(content := m.regions[i].content)
  }

  /** A structured buffer fits every layout with the same section names. */
  lemma {:induction false} SelfFits(syn: Syntax, m: Layout, g: Layout)
    requires Structured(syn, m) && Names(m.regions) == Names(g.regions)
    ensures Fits(syn, Flatten(m), g)
  {
    StructuredNames(syn, m);
    forall n | n in Names(g.regions) && n in BeginNames(syn, Flatten(m))
      ensures GetSection(syn, Flatten(m), n).Ok?
      ensures AllPlain(syn, GetSection(syn, Flatten(m), n).value, Names(g.regions))
    {
      var j := NameIndex(m.regions, n);
      StructuredGetSet(syn, m, j, []);
      ContentPlain(syn, m, j);
    }
  }

  /** Overlaying `g` with a map holding, under each name, the content `m`
      has there gives `m` back when `m` has `g`'s frame. */
  lemma {:induction false} OverlayFrame(m: Layout, g: Layout, sections: map<string, Lines>)
    requires SameFrame(m, g)
    requires forall i :: 0 <= i < |g.regions| ==>
      g.regions[i].name in sections && sections[g.regions[i].name] == m.regions[i].content
    ensures Overlay(g, sections, Names(g.regions)) == m
  {
    var again := Overlay(g, sections, Names(g.regions));
    forall i | 0 <= i < |g.regions|
      ensures again.regions[i] == m.regions[i]
    {
      assert Names(g.regions)[i] == g.regions[i].name;
    }
    assert again.regions == m.regions;
  }

  /** Keeping the sections of a buffer with the generated frame gives it back. */
  lemma {:induction false} KeptSelf(syn: Syntax, m: Layout, g: Layout)
    requires Structured(syn, m) && SameFrame(m, g)
    ensures WellFormed(syn, Flatten(m))
    ensures Kept(syn, Flatten(m), g) == m
  {
    StructuredNames(syn, m);
    SectionsOfLayout(syn, m);
    var kept := Sections(syn, Flatten(m)).value;
    forall i | 0 <= i < |g.regions|
      ensures g.regions[i].name in kept && kept[g.regions[i].name] == m.regions[i].content
    {
      assert m.regions[i].name == g.regions[i].name;
    }
    OverlayFrame(m, g, kept);
  }

  /** Merging a buffer that already has the generated frame reproduces it:
      every section is carried over onto itself. */
  lemma {:induction false} RemergeFixed(syn: Syntax, m: Layout, g: Layout)
    requires Structured(syn, m) && Structured(syn, g) && SameFrame(m, g)
    ensures HandleSections(syn, Flatten(m), Flatten(g)) == Ok(Flatten(m))
  {
    assert Names(m.regions) == Names(g.regions);
    SelfFits(syn, m, g);
    MergeResult(syn, Flatten(m), g);
    KeptSelf(syn, m, g);
  }

  /** Every content of `e` that the merge may carry into `g` is plain with
      respect to `g`'s names. */
  predicate Compatible(syn: Syntax, e: Layout, g: Layout) {
    forall i :: 0 <= i < |e.regions| && e.regions[i].name in Names(g.regions) ==>
      AllPlain(syn, e.regions[i].content, Names(g.regions))
  }

  /** A structured existent buffer whose sections are compatible with `g` fits it. */
  lemma {:induction false} CompatibleFits(syn: Syntax, e: Layout, g: Layout)
    requires Structured(syn, e) && Compatible(syn, e, g)
    ensures Fits(syn, Flatten(e), g)
  {
    StructuredNames(syn, e);
    forall n | n in Names(g.regions) && n in BeginNames(syn, Flatten(e))
      ensures GetSection(syn, Flatten(e), n).Ok?
      ensures AllPlain(syn, GetSection(syn, Flatten(e), n).value, Names(g.regions))
    {
      var j := NameIndex(e.regions, n);
      StructuredGetSet(syn, e, j, []);
    }
  }

  /** Idempotence: merging the merged buffer with the same generated buffer
      again changes nothing. */
  lemma {:induction false} MergeIdempotent(syn: Syntax, e: Layout, g: Layout)
    requires Structured(syn, e) && Structured(syn, g)
    requires Compatible(syn, e, g)
    ensures HandleSections(syn, Flatten(e), Flatten(g)).Ok?
    ensures var once := HandleSections(syn, Flatten(e), Flatten(g)).value;
      HandleSections(syn, once, Flatten(g)) == Ok(once)
  {
    CompatibleFits(syn, e, g);
    MergeTwice(syn, Flatten(e), g);
  }

  /** Merging into a generated buffer of known shape succeeds for any existent
      buffer that fits it, and merging the result again changes nothing. */
  lemma {:induction false} MergeTwice(syn: Syntax, existent: Lines, g: Layout)
    requires Structured(syn, g) && Fits(syn, existent, g)
    ensures HandleSections(syn, existent, Flatten(g)).Ok?
    ensures var once := HandleSections(syn, existent, Flatten(g)).value;
      HandleSections(syn, once, Flatten(g)) == Ok(once)
  {
    MergeResult(syn, existent, g);
    KeptShape(syn, existent, g);
    RemergeFixed(syn, Kept(syn, existent, g), g);
  }
}

=== FILE: markers.dfy ===
/** The marker syntax of protected sections (`codesectionhandler.py`): a
    section `name` opens on a line containing `begin + " " + name + postfix`
    and closes on a line containing `end + " " + name + postfix`. */
module Markers {

  import opened Text

  /** `(SECTION_BEGIN, SECTION_END, SECTION_POSTFIX)` of one template family. */
  datatype Syntax = Syntax(begin: string, end: string, postfix: string)

  /** The defaults of `CodeSectionHandler`, used by the plain, Jinja and DTML templates. */
  const Default := Syntax("##code-section", "##/code-section", "")

  /** The syntax `XMLTemplate` overrides them with. */
  const Xml := Syntax("<!-- code-section", "<!-- /code-section", " -->")

  /** `BEGIN_PATTERN % name`. The source builds the pattern by `%`-formatting
      `SECTION_BEGIN + ' %s' + SECTION_POSTFIX`; concatenation gives the same
      string because neither token of `Default` or `Xml` holds a `%`. */
  function BeginPattern(syn: Syntax, name: string): string {
    syn.begin + " " + name + syn.postfix
  }

  /** `END_PATTERN % name`, built like `BeginPattern`. */
  function EndPattern(syn: Syntax, name: string): string {
    syn.end + " " + name + syn.postfix
  }

  /** The line carries the begin token of some section. */
  predicate OpensSection(syn: Syntax, line: Line) {
    Contains(line, syn.begin)
  }

  /** The line carries the begin marker of section `name`. */
  predicate IsBegin(syn: Syntax, line: Line, name: string) {
    Contains(line, BeginPattern(syn, name))
  }

  /** The line carries the end marker of section `name`. */
  predicate IsEnd(syn: Syntax, line: Line, name: string) {
    Contains(line, EndPattern(syn, name))
  }

  /** A begin marker of any name contains the begin token. */
  lemma {:induction false} BeginOpens(syn: Syntax, line: Line, name: string)
    requires IsBegin(syn, line, name)
    ensures OpensSection(syn, line)
  {
    assert BeginPattern(syn, name) == syn.begin + (" " + name + syn.postfix);
    ContainsPrefixOf(line, syn.begin, " " + name + syn.postfix);
  }

  /** The name `sectionnames` reads off a line holding the begin token: the
      stripped text after the first begin token, cut as `NameAfter` says. */
  function ExtractName(syn: Syntax, line: Line): (name: string)
    requires OpensSection(syn, line)
    ensures |name| > 0 ==> !IsSpace(name[0]) && !IsSpace(name[|name| - 1])
  {
    NameAfter(syn, Strip(line[Find(line, syn.begin) + |syn.begin|..]))
  }

  /** The stripped text after the begin token, cut before the first postfix
      occurrence and stripped again when the syntax has a postfix (a missing
      postfix cuts off the last character, as Python's `name[:-1]` does). */
  function NameAfter(syn: Syntax, rest: string): (name: string)
    requires |rest| > 0 ==> !IsSpace(rest[0]) && !IsSpace(rest[|rest| - 1])
    ensures |name| > 0 ==> !IsSpace(name[0]) && !IsSpace(name[|name| - 1])
  {
    if |syn.postfix| > 0 then Strip(SliceTo(rest, Find(rest, syn.postfix))) else rest
  }

  /** A syntax whose tokens can be told apart from surrounding whitespace:
      the begin and end tokens start with a visible character and a postfix
      starts with a blank and ends with a visible character. Both `Default`
      and `Xml` are of this kind. */
  predicate Delimited(syn: Syntax) {
    && |syn.begin| > 0 && !IsSpace(syn.begin[0])
    && |syn.end| > 0 && !IsSpace(syn.end[0])
    && (|syn.postfix| > 0 ==> syn.postfix[0] == ' ' && !IsSpace(syn.postfix[|syn.postfix| - 1]))
  }

  /** The two syntaxes the templates use are delimited. */
  lemma {:induction false} SyntaxesDelimited()
    ensures Delimited(Default) && Delimited(Xml)
  {
  }

  /** A name free of whitespace. */
  predicate Word(name: string) {
    |name| > 0 && forall k :: 0 <= k < |name| ==> !IsSpace(name[k])
  }

  /** A name `ExtractName` reads back from its own begin marker: no
      whitespace at either end and, under a postfix, non-empty and with no
      occurrence of the postfix starting inside it. Names with inner blanks
      qualify. */
  predicate Readable(syn: Syntax, name: string) {
    && (|name| > 0 ==> !IsSpace(name[0]) && !IsSpace(name[|name| - 1]))
    && (|syn.postfix| > 0 ==>
          |name| > 0 && forall k :: 0 <= k < |name| ==> !MatchAt(name + syn.postfix, syn.postfix, k))
  }

  /** A whitespace-free name is readable under a delimited syntax, whose
      postfix starts with a blank. */
  lemma {:induction false} WordReadable(syn: Syntax, name: string)
    requires Delimited(syn) && Word(name)
    ensures Readable(syn, name)
  {
    if |syn.postfix| > 0 {
      var s := name + syn.postfix;
      forall k | 0 <= k < |name|
        ensures !MatchAt(s, syn.postfix, k)
      {
        assert s[k] == name[k];
        MatchEnds(s, syn.postfix, k);
      }
    }
  }

  /** `find` returns a place `p` occurs at when it occurs at no earlier place. */
  lemma {:induction false} FindFirst(s: string, p: string, i: nat)
    requires i <= |s| && MatchAt(s, p, i)
    requires forall k: nat :: k < i ==> !MatchAt(s, p, k)
    ensures Find(s, p) == i
  {
    assert Contains(s, p);
  }

  /** `find` returns the first place `p` starts at when no earlier
      character could start it. */
  lemma {:induction false} FindAfter(u: string, p: string, t: string)
    requires |p| > 0
    requires forall k :: 0 <= k < |u| ==> u[k] != p[0]
    ensures Find(u + p + t, p) == |u|
  {
    var s := u + p + t;
    assert s[|u|..|u| + |p|] == p;
    assert MatchAt(s, p, |u|);
    forall k: nat | k < |u|
      ensures !MatchAt(s, p, k)
    {
      assert s[k] == u[k] != p[0];
      MatchEnds(s, p, k);
    }
  }

  /** A written begin marker carries the begin token and the name's begin pattern. */
  lemma {:induction false} MarkerOpens(syn: Syntax, indent: string, name: string, eol: string)
    ensures IsBegin(syn, indent + BeginPattern(syn, name) + eol, name)
    ensures OpensSection(syn, indent + BeginPattern(syn, name) + eol)
  {
    var pat := BeginPattern(syn, name);
    var line := indent + pat + eol;
    assert line[|indent|..|indent| + |pat|] == pat;
    assert MatchAt(line, pat, |indent|);
    BeginOpens(syn, line, name);
  }

  lemma {:induction false} MarkerSplit(syn: Syntax, indent: string, name: string, eol: string)
    ensures indent + BeginPattern(syn, name) + eol == indent + syn.begin + (" " + (name + syn.postfix) + eol)
  {
  }

  lemma {:induction false} DropFront(a: string, b: string)
    ensures (a + b)[|a|..] == b
  {
  }

  /** In a written begin marker the first begin token sits right after the
      indentation, followed by a blank, the name, the postfix and the line end. */
  lemma {:induction false} MarkerTail(syn: Syntax, indent: string, name: string, eol: string)
    requires Delimited(syn) && AllSpace(indent)
    ensures Find(indent + BeginPattern(syn, name) + eol, syn.begin) == |indent|
    ensures var line := indent + BeginPattern(syn, name) + eol;
      line[Find(line, syn.begin) + |syn.begin|..] == " " + (name + syn.postfix) + eol
  {
    var tail := " " + (name + syn.postfix) + eol;
    MarkerSplit(syn, indent, name, eol);
    FindAfter(indent, syn.begin, tail);
    DropFront(indent + syn.begin, tail);
  }

  /** The name read off a line is determined by the text after its first begin token. */
  lemma {:induction false} NameOfTail(syn: Syntax, line: Line, tail: string)
    requires OpensSection(syn, line)
    requires line[Find(line, syn.begin) + |syn.begin|..] == tail
    ensures ExtractName(syn, line) == NameAfter(syn, Strip(tail))
  {
    var rest := line[Find(line, syn.begin) + |syn.begin|..];
    assert ExtractName(syn, line) == NameAfter(syn, Strip(rest));
  }

  /** The name read off a line is the one its tail cuts to. */
  lemma {:induction false} ReadName(syn: Syntax, line: Line, tail: string, name: string)
    requires OpensSection(syn, line)
    requires line[Find(line, syn.begin) + |syn.begin|..] == tail
    requires NameAfter(syn, Strip(tail)) == name
    ensures ExtractName(syn, line) == name
  {
    NameOfTail(syn, line, tail);
  }

  /** The text after the begin token of a written marker strips and cuts to the name. */
  lemma {:induction false} NameFromTail(syn: Syntax, name: string, eol: string)
    requires Delimited(syn)
    requires AllSpace(eol)
    requires Readable(syn, name)
    ensures NameAfter(syn, Strip(" " + (name + syn.postfix) + eol)) == name
  {
    var core := name + syn.postfix;
    assert AllSpace(" ");
    if |core| > 0 {
      assert core[0] == name[0];
      assert core[|core| - 1] == if |syn.postfix| > 0 then syn.postfix[|syn.postfix| - 1] else name[|name| - 1];
    }
    StripOf(" ", core, eol);
    if |syn.postfix| > 0 {
      CutAtPostfix(name, syn.postfix);
    }
  }

  /** Cutting a trimmed name followed by a postfix that does not start
      inside it, at the postfix, gives the name. */
  lemma {:induction false} CutAtPostfix(name: string, postfix: string)
    requires |name| > 0 && !IsSpace(name[0]) && !IsSpace(name[|name| - 1])
    requires |postfix| > 0
    requires forall k :: 0 <= k < |name| ==> !MatchAt(name + postfix, postfix, k)
    ensures Strip(SliceTo(name + postfix, Find(name + postfix, postfix))) == name
  {
    var s := name + postfix;
    assert s[|name|..|name| + |postfix|] == postfix;
    FindFirst(s, postfix, |name|);
    assert SliceTo(s, |name|) == name;
    assert AllSpace("");
    assert "" + name + "" == name;
    StripOf("", name, "");
  }

  /** Writing a begin marker for a readable name, indented and followed by a
      line end, and reading it back with `ExtractName` gives the name. */
  lemma {:induction false} MarkerNameRoundTrip(syn: Syntax, indent: string, name: string, eol: string)
    requires Delimited(syn)
    requires AllSpace(indent) && AllSpace(eol)
    requires Readable(syn, name)
    ensures OpensSection(syn, indent + BeginPattern(syn, name) + eol)
    ensures ExtractName(syn, indent + BeginPattern(syn, name) + eol) == name
  {
    var line := indent + BeginPattern(syn, name) + eol;
    var tail := " " + (name + syn.postfix) + eol;
    assert OpensSection(syn, line) by { MarkerOpens(syn, indent, name, eol); }
    assert line[Find(line, syn.begin) + |syn.begin|..] == tail by { MarkerTail(syn, indent, name, eol); }
    assert NameAfter(syn, Strip(tail)) == name by { NameFromTail(syn, name, eol); }
    ReadName(syn, line, tail, name);
  }
}

=== FILE: merge.dfy ===
/** `SectionedTemplate.handlesections` (identical in `template.py` and
    `_api.py`): keep the hand-edited sections of the existent buffer and put
    them into the freshly generated one. */
module Merge {

  import opened Outcomes
  import opened Text
  import opened Markers
  import opened Scanner
  import opened Store

  /** The names in a list, as a set. */
  function NameSet(names: seq<string>): set<string> {
    set n | n in names
  }

  /** The first loop of `handlesections`: `sections[name] = getsection(name)`
      for each name in turn, on top of the entries already in `acc`. */
  function Preserve(syn: Syntax, lines: Lines, names: seq<string>, acc: map<string, Lines>): (r: Result<map<string, Lines>>)
    ensures r.Ok? <==> forall n :: n in names ==> GetSection(syn, lines, n).Ok?
    ensures r.Ok? ==> r.value.Keys == acc.Keys + NameSet(names)
    ensures r.Ok? ==> forall n :: n in names ==> r.value[n] == GetSection(syn, lines, n).value
    ensures r.Ok? ==> forall n :: n in acc && n !in names ==> r.value[n] == acc[n]
    decreases |names|
  {
    if |names| == 0 then Ok(acc)
    else
      var got := GetSection(syn, lines, names[0]);
      if got.Fail? then Fail(got.error)
      else
        var r := Preserve(syn, lines, names[1..], acc[names[0] := got.value]);
        assert forall n :: n in names <==> n == names[0] || n in names[1..];
        r
  }

  /** In a well-formed buffer `getsection` succeeds for every listed name. */
  lemma {:induction false} AllSectionsReadable(syn: Syntax, lines: Lines)
    requires WellFormed(syn, lines)
    ensures forall n :: n in BeginNames(syn, lines) ==> GetSection(syn, lines, n).Ok?
  {
    forall n | n in BeginNames(syn, lines)
      ensures GetSection(syn, lines, n).Ok?
    {
      EveryNameCloses(syn, lines, n);
    }
  }

  /** The section contents `handlesections` keeps from the existent buffer:
      one entry per listed name, holding what `getsection` reads for it (the
      first section of that name). Only a malformed buffer raises. */
  function Sections(syn: Syntax, existent: Lines): (r: Result<map<string, Lines>>)
    ensures r.Ok? <==> WellFormed(syn, existent)
    ensures r.Fail? ==> r.error == SectionEndMissing
    ensures r.Ok? ==> r.value.Keys == NameSet(BeginNames(syn, existent))
    ensures r.Ok? ==> forall n :: n in r.value ==> GetSection(syn, existent, n) == Ok(r.value[n])
  {
    var names := SectionNames(syn, existent);
    if names.Fail? then Fail(names.error)
    else
      AllSectionsReadable(syn, existent);
      Preserve(syn, existent, names.value, map[])
  }

  /** The second loop of `handlesections`: in turn, every listed name that
      has a kept content is written over with it by `setsection`. */
  function Overwrite(syn: Syntax, lines: Lines, names: seq<string>, sections: map<string, Lines>): (r: Result<Lines>)
    ensures (forall n :: n in names ==> n !in sections) ==> r == Ok(lines)
    ensures r.Fail? ==>
      exists n :: n in names && n in sections && (r.error == SectionNotFound(n) || r.error == SectionStartMissing(n))
    decreases |names|
  {
    if |names| == 0 then Ok(lines)
    else if names[0] in sections then
      var next := SetSection(syn, lines, names[0], sections[names[0]]);
      if next.Fail? then Fail(next.error)
      else Overwrite(syn, next.value, names[1..], sections)
    else Overwrite(syn, lines, names[1..], sections)
  }

  /** `handlesections(existent, generated)`: the generated buffer with the
      sections it shares with the existent buffer overwritten by the
      existent contents; only the section engine's own errors are raised. */
  function HandleSections(syn: Syntax, existent: Lines, generated: Lines): (r: Result<Lines>)
    ensures r.Fail? ==> r.error == SectionEndMissing || r.error.SectionNotFound? || r.error.SectionStartMissing?
  {
    var sections := Sections(syn, existent);
    if sections.Fail? then Fail(sections.error)
    else
      var names := SectionNames(syn, generated);
      if names.Fail? then Fail(names.error)
      else Overwrite(syn, generated, names.value, sections.value)
  }

  /** When `handlesections` raises and what it returns without a shared
      section. A malformed existent or generated buffer raises; with no
      section name in common the generated buffer comes back unchanged (in
      particular for an empty existent buffer, which is what a missing file
      reads as); any other failure is a `setsection` failure on a name both
      buffers list. */
  lemma {:induction false} HandleSectionsOutcome(syn: Syntax, existent: Lines, generated: Lines)
    ensures var r := HandleSections(syn, existent, generated);
      && (!WellFormed(syn, existent) ==> r == Fail(SectionEndMissing))
      && (WellFormed(syn, existent) && !WellFormed(syn, generated) ==> r == Fail(SectionEndMissing))
      && (WellFormed(syn, existent) && WellFormed(syn, generated)
          && (forall n :: n in BeginNames(syn, generated) ==> n !in BeginNames(syn, existent))
          ==> r == Ok(generated))
      && (existent == [] ==> r == if WellFormed(syn, generated) then Ok(generated) else Fail(SectionEndMissing))
      && (r.Fail? && WellFormed(syn, existent) && WellFormed(syn, generated) ==>
            exists n :: (n in BeginNames(syn, generated) && n in BeginNames(syn, existent)
                         && (r.error == SectionNotFound(n) || r.error == SectionStartMissing(n))))
  {
    var r := HandleSections(syn, existent, generated);
    if WellFormed(syn, existent) && WellFormed(syn, generated) {
      var sections := Sections(syn, existent).value;
      var names := SectionNames(syn, generated).value;
      assert r == Overwrite(syn, generated, names, sections);
      if r.Fail? {
        var n :| n in names && n in sections && (r.error == SectionNotFound(n) || r.error == SectionStartMissing(n));
        assert n in BeginNames(syn, generated) && n in BeginNames(syn, existent);
      }
    }
    if existent == [] {
      assert WellFormed(syn, existent);
      assert BeginNames(syn, existent) == [];
    }
  }
}

=== FILE: oneline.dfy ===
/** One-line regions: a begin marker followed on the same line by the end
    marker of the same name. Without a postfix the name read off such a line
    swallows the end marker, so `sectionnames` raises; with a postfix the
    region is listed and reads as empty, but `setsection` raises on it, so a
    merge that carries a section into such a region raises. */
module OneLine {

  import opened Outcomes
  import opened Text
  import opened Markers
  import opened Scanner
  import opened Store
  import opened Merge

  /** A line holding the begin marker, a gap and the end marker of `name`. */
  function Joined(syn: Syntax, indent: string, name: string, gap: string, eol: string): Line {
    indent + BeginPattern(syn, name) + gap + EndPattern(syn, name) + eol
  }

  // ----- without a postfix ------------------------------------------------------

  /** The name `sectionnames` reads off a one-line region when the syntax has
      no postfix: the section name, the gap and the end marker. */
  function SwallowedName(syn: Syntax, name: string, gap: string): string {
    name + gap + EndPattern(syn, name)
  }

  /** Without a postfix, the name read off a one-line region runs to the end
      of the stripped line. */
  lemma {:induction false} JoinedNameNoPostfix(syn: Syntax, indent: string, name: string, gap: string, eol: string)
    requires Delimited(syn) && syn.postfix == ""
    requires AllSpace(indent) && AllSpace(gap) && AllSpace(eol)
    requires Word(name)
    ensures OpensSection(syn, Joined(syn, indent, name, gap, eol))
    ensures ExtractName(syn, Joined(syn, indent, name, gap, eol)) == SwallowedName(syn, name, gap)
  {
    var rest := gap + EndPattern(syn, name) + eol;
    var line := indent + BeginPattern(syn, name) + rest;
    assert line == Joined(syn, indent, name, gap, eol);
    var tail := " " + (name + syn.postfix) + rest;
    assert OpensSection(syn, line) by { MarkerOpens(syn, indent, name, rest); }
    assert line[Find(line, syn.begin) + |syn.begin|..] == tail by { MarkerTail(syn, indent, name, rest); }
    assert NameAfter(syn, Strip(tail)) == SwallowedName(syn, name, gap) by { SwallowedTail(syn, name, gap, eol); }
    ReadName(syn, line, tail, SwallowedName(syn, name, gap));
  }

  /** The text after the begin token of a one-line region without postfix
      strips to the name, the gap and the end marker. */
  lemma {:induction false} SwallowedTail(syn: Syntax, name: string, gap: string, eol: string)
    requires Delimited(syn) && syn.postfix == ""
    requires AllSpace(eol)
    requires Word(name)
    ensures NameAfter(syn, Strip(" " + (name + syn.postfix) + (gap + EndPattern(syn, name) + eol)))
      == SwallowedName(syn, name, gap)
  {
    var core := SwallowedName(syn, name, gap);
    assert " " + (name + syn.postfix) + (gap + EndPattern(syn, name) + eol) == " " + core + eol;
    assert core[0] == name[0] && core[|core| - 1] == name[|name| - 1];
    assert AllSpace(" ");
    StripOf(" ", core, eol);
  }

  /** The end marker of the swallowed name does not occur on the line, when
      the end token is longer than the begin token (as in `Default`). */
  lemma {:induction false} SwallowedNeverCloses(syn: Syntax, indent: string, name: string, gap: string, eol: string)
    requires Delimited(syn) && syn.postfix == "" && |syn.end| > |syn.begin|
    requires AllSpace(indent) && AllSpace(eol)
    requires Word(name)
    ensures !IsEnd(syn, Joined(syn, indent, name, gap, eol), SwallowedName(syn, name, gap))
  {
    var core := BeginPattern(syn, name) + gap + EndPattern(syn, name);
    var p := EndPattern(syn, SwallowedName(syn, name, gap));
    assert Joined(syn, indent, name, gap, eol) == indent + core + eol;
    assert |p| > |core|;
    assert p[0] == syn.end[0] && p[|p| - 1] == name[|name| - 1];
    PaddedNotContained(indent, core, eol, p);
  }

  /** Without a postfix, a buffer with a one-line region raises in
      `sectionnames` unless a later line carries the end marker of the
      swallowed name. */
  lemma {:induction false} JoinedRaises(syn: Syntax, x: Lines, indent: string, name: string, gap: string, eol: string, y: Lines)
    requires Delimited(syn) && syn.postfix == "" && |syn.end| > |syn.begin|
    requires AllSpace(indent) && AllSpace(gap) && AllSpace(eol)
    requires Word(name)
    requires forall k :: 0 <= k < |y| ==> !IsEnd(syn, y[k], SwallowedName(syn, name, gap))
    ensures SectionNames(syn, x + [Joined(syn, indent, name, gap, eol)] + y) == Fail(SectionEndMissing)
  {
    var line := Joined(syn, indent, name, gap, eol);
    var n := SwallowedName(syn, name, gap);
    assert OpensSection(syn, line) && ExtractName(syn, line) == n by {
      JoinedNameNoPostfix(syn, indent, name, gap, eol);
    }
    assert !IsEnd(syn, line, n) by { SwallowedNeverCloses(syn, indent, name, gap, eol); }
    NeverClosedRaises(syn, x, line, y, n);
  }

  /** A section opened on a line that no line from there on closes makes
      `sectionnames` raise. */
  lemma {:induction false} NeverClosedRaises(syn: Syntax, x: Lines, line: Line, y: Lines, n: string)
    requires OpensSection(syn, line) && ExtractName(syn, line) == n
    requires !IsEnd(syn, line, n)
    requires forall k :: 0 <= k < |y| ==> !IsEnd(syn, y[k], n)
    ensures SectionNames(syn, x + [line] + y) == Fail(SectionEndMissing)
  {
    var lines := x + [line] + y;
    assert lines[|x|] == line && lines[|x|..] == [line] + y && lines[|x| + 1..] == y;
    assert FirstIndex([line] + y, EndPattern(syn, n)) == |y| + 1 by {
      assert ([line] + y) + [] == [line] + y;
      FirstIndexSkip([line] + y, [], EndPattern(syn, n));
    }
    assert !ClosesBeforeNext(syn, lines, |x|);
  }

  // ----- with a postfix ---------------------------------------------------------

  /** With a postfix, the name read off a one-line region is the section
      name, and the line carries both of its markers. */
  lemma {:induction false} JoinedNamePostfix(syn: Syntax, indent: string, name: string, gap: string, eol: string)
    requires Delimited(syn) && |syn.postfix| > 0
    requires AllSpace(indent) && AllSpace(gap) && AllSpace(eol)
    requires Word(name)
    ensures var line := Joined(syn, indent, name, gap, eol);
      && OpensSection(syn, line) && ExtractName(syn, line) == name
      && IsBegin(syn, line, name) && IsEnd(syn, line, name)
  {
    var rest := gap + EndPattern(syn, name) + eol;
    var line := indent + BeginPattern(syn, name) + rest;
    assert line == Joined(syn, indent, name, gap, eol);
    var tail := " " + (name + syn.postfix) + rest;
    assert IsBegin(syn, line, name) && OpensSection(syn, line) by { MarkerOpens(syn, indent, name, rest); }
    assert line[Find(line, syn.begin) + |syn.begin|..] == tail by { MarkerTail(syn, indent, name, rest); }
    assert NameAfter(syn, Strip(tail)) == name by { PostfixTail(syn, name, gap, eol); }
    ReadName(syn, line, tail, name);
    assert IsEnd(syn, line, name) by { EndAfterBegin(syn, indent, name, gap, eol); }
  }

  /** The text after the begin token of a one-line region with a postfix
      cuts to the name at the first postfix. */
  lemma {:induction false} PostfixTail(syn: Syntax, name: string, gap: string, eol: string)
    requires Delimited(syn) && |syn.postfix| > 0
    requires AllSpace(eol)
    requires Word(name)
    ensures NameAfter(syn, Strip(" " + (name + syn.postfix) + (gap + EndPattern(syn, name) + eol))) == name
  {
    var more := gap + EndPattern(syn, name);
    var core := name + syn.postfix + more;
    assert Strip(" " + (name + syn.postfix) + (more + eol)) == core by {
      assert " " + (name + syn.postfix) + (more + eol) == " " + core + eol;
      assert core[0] == name[0] && core[|core| - 1] == syn.postfix[|syn.postfix| - 1];
      assert AllSpace(" ");
      StripOf(" ", core, eol);
    }
    CutBeforePostfix(name, syn.postfix, more);
  }

  /** Cutting a word followed by a blank-led postfix and anything else at the
      first postfix gives the word. */
  lemma {:induction false} CutBeforePostfix(name: string, postfix: string, more: string)
    requires Word(name)
    requires |postfix| > 0 && postfix[0] == ' '
    ensures Strip(SliceTo(name + postfix + more, Find(name + postfix + more, postfix))) == name
  {
    FindAfter(name, postfix, more);
    assert SliceTo(name + postfix + more, |name|) == name;
    assert AllSpace("") && "" + name + "" == name;
    StripOf("", name, "");
  }

  /** The end marker sits on a one-line region after the begin marker and the gap. */
  lemma {:induction false} EndAfterBegin(syn: Syntax, indent: string, name: string, gap: string, eol: string)
    ensures IsEnd(syn, Joined(syn, indent, name, gap, eol), name)
  {
    var line := Joined(syn, indent, name, gap, eol);
    var e := EndPattern(syn, name);
    var at := |indent| + |BeginPattern(syn, name)| + |gap|;
    assert line[at..at + |e|] == e;
    assert MatchAt(line, e, at);
  }

  /** With a postfix, a one-line region on its own is a well-formed buffer
      listing its name. */
  lemma {:induction false} JoinedListed(syn: Syntax, indent: string, name: string, gap: string, eol: string)
    requires Delimited(syn) && |syn.postfix| > 0
    requires AllSpace(indent) && AllSpace(gap) && AllSpace(eol)
    requires Word(name)
    ensures SectionNames(syn, [Joined(syn, indent, name, gap, eol)]) == Ok([name])
  {
    var line := Joined(syn, indent, name, gap, eol);
    assert OpensSection(syn, line) && ExtractName(syn, line) == name && IsEnd(syn, line, name) by {
      JoinedNamePostfix(syn, indent, name, gap, eol);
    }
    ClosedOnItsLine(syn, line, name);
  }

  /** A line that opens a section and closes it again is, on its own, a
      well-formed buffer listing that section. */
  lemma {:induction false} ClosedOnItsLine(syn: Syntax, line: Line, name: string)
    requires OpensSection(syn, line) && ExtractName(syn, line) == name && IsEnd(syn, line, name)
    ensures SectionNames(syn, [line]) == Ok([name])
  {
    assert BeginNames(syn, [line]) == [name] by {
      assert [line][1..] == [];
    }
    assert WellFormed(syn, [line]) by {
      assert [line][0..] == [line];
      assert FirstIndex([line], EndPattern(syn, name)) == 0;
    }
  }

  /** With a postfix, merging an existent buffer that lists `name` into a
      generated buffer made of a one-line region of `name` raises, because
      `setsection` finds the end marker before it has seen a begin marker. */
  lemma {:induction false} JoinedMergeRaises(syn: Syntax, existent: Lines, indent: string, name: string, gap: string, eol: string)
    requires Delimited(syn) && |syn.postfix| > 0
    requires AllSpace(indent) && AllSpace(gap) && AllSpace(eol)
    requires Word(name)
    requires WellFormed(syn, existent) && name in BeginNames(syn, existent)
    ensures HandleSections(syn, existent, [Joined(syn, indent, name, gap, eol)]) == Fail(SectionStartMissing(name))
  {
    var line := Joined(syn, indent, name, gap, eol);
    assert SectionNames(syn, [line]) == Ok([name]) by { JoinedListed(syn, indent, name, gap, eol); }
    assert IsBegin(syn, line, name) && IsEnd(syn, line, name) by {
      JoinedNamePostfix(syn, indent, name, gap, eol);
    }
    MergeIntoOneLine(syn, existent, line, name);
  }

  /** Merging a section the existent buffer has into a generated buffer
      whose only line both opens and closes it raises. */
  lemma {:induction false} MergeIntoOneLine(syn: Syntax, existent: Lines, line: Line, name: string)
    requires SectionNames(syn, [line]) == Ok([name])
    requires IsBegin(syn, line, name) && IsEnd(syn, line, name)
    requires WellFormed(syn, existent) && name in BeginNames(syn, existent)
    ensures HandleSections(syn, existent, [line]) == Fail(SectionStartMissing(name))
  {
    assert Sections(syn, existent).Ok? && name in Sections(syn, existent).value by {
      KeptName(syn, existent, name);
    }
    var sections := Sections(syn, existent).value;
    assert HandleSections(syn, existent, [line]) == Overwrite(syn, [line], [name], sections) by {
      MergeLoops(syn, existent, [line]);
    }
    assert SetSection(syn, [line], name, sections[name]) == Fail(SectionStartMissing(name)) by {
      LoneLineRaises(syn, line, name, sections[name]);
    }
    OverwriteFirstFails(syn, [line], [name], sections);
  }

  /** The first loop of the merge keeps a section for every name a
      well-formed existent buffer lists. */
  lemma {:induction false} KeptName(syn: Syntax, existent: Lines, name: string)
    requires WellFormed(syn, existent) && name in BeginNames(syn, existent)
    ensures Sections(syn, existent).Ok? && name in Sections(syn, existent).value
  {
    assert name in NameSet(BeginNames(syn, existent));
  }

  /** `setsection` raises on a buffer whose only line carries both markers. */
  lemma {:induction false} LoneLineRaises(syn: Syntax, line: Line, name: string, code: Lines)
    requires IsBegin(syn, line, name) && IsEnd(syn, line, name)
    ensures SetSection(syn, [line], name, code) == Fail(SectionStartMissing(name))
  {
    assert [] + [line] + [] == [line];
    SingleLineRegion(syn, [], line, [], name, code);
  }

  /** On well-formed buffers the merge is its second loop run with the
      sections the first one kept. */
  lemma {:induction false} MergeLoops(syn: Syntax, existent: Lines, generated: Lines)
    requires WellFormed(syn, existent) && SectionNames(syn, generated).Ok?
    ensures Sections(syn, existent).Ok?
    ensures HandleSections(syn, existent, generated)
      == Overwrite(syn, generated, SectionNames(syn, generated).value, Sections(syn, existent).value)
  {
  }

  /** The second loop of the merge stops at the first kept name whose
      `setsection` raises, when that is the first listed name. */
  lemma {:induction false} OverwriteFirstFails(syn: Syntax, lines: Lines, names: seq<string>, sections: map<string, Lines>)
    requires |names| > 0 && names[0] in sections
    requires SetSection(syn, lines, names[0], sections[names[0]]).Fail?
    ensures Overwrite(syn, lines, names, sections) == Fail(SetSection(syn, lines, names[0], sections[names[0]]).error)
  {
  }

  // ----- the two syntaxes of the templates --------------------------------------

  /** `##code-section X ##/code-section X` on a line of its own, in a buffer
      of the default syntax, makes `sectionnames` raise. */
  lemma {:induction false} DefaultJoinedRaises(x: Lines, name: string, y: Lines)
    requires Word(name)
    requires forall k :: 0 <= k < |y| ==> !IsEnd(Default, y[k], SwallowedName(Default, name, " "))
    ensures SectionNames(Default, x + [Joined(Default, "", name, " ", "\n")] + y) == Fail(SectionEndMissing)
  {
    SyntaxesDelimited();
    assert AllSpace("") && AllSpace(" ") && AllSpace("\n");
    JoinedRaises(Default, x, "", name, " ", "\n", y);
  }

  /** `<!-- code-section X --><!-- /code-section X -->` is listed by
      `sectionnames` and read as empty by `getsection`, and merging a
      section `X` of the existent file into it raises. */
  lemma {:induction false} XmlJoinedMergeRaises(existent: Lines, name: string)
    requires Word(name)
    requires WellFormed(Xml, existent) && name in BeginNames(Xml, existent)
    ensures SectionNames(Xml, [Joined(Xml, "", name, "", "\n")]) == Ok([name])
    ensures GetSection(Xml, [Joined(Xml, "", name, "", "\n")], name) == Ok([])
    ensures HandleSections(Xml, existent, [Joined(Xml, "", name, "", "\n")]) == Fail(SectionStartMissing(name))
  {
    var line := Joined(Xml, "", name, "", "\n");
    SyntaxesDelimited();
    assert AllSpace("") && AllSpace("\n");
    assert SectionNames(Xml, [line]) == Ok([name]) by { JoinedListed(Xml, "", name, "", "\n"); }
    assert IsBegin(Xml, line, name) && IsEnd(Xml, line, name) by {
      JoinedNamePostfix(Xml, "", name, "", "\n");
    }
    assert GetSection(Xml, [line], name) == Ok([]) by {
      assert [] + [line] + [] == [line];
      SingleLineRegion(Xml, [], line, [], name, []);
    }
    assert HandleSections(Xml, existent, [line]) == Fail(SectionStartMissing(name)) by {
      JoinedMergeRaises(Xml, existent, "", name, "", "\n");
    }
  }
}

=== FILE: outcomes.dfy ===
/** Failure-carrying values shared by the section engine and the render
    pipeline: the exceptions the program raises become `Error` values. */
module Outcomes {

  /** Every exception the modelled code raises. */
  datatype Error =
      /** `sectionnames`: a begin token while a section is open, or a section
          still open at the end of the buffer ("Section end pattern not set."). */
    | SectionEndMissing
      /** `getsection` / `setsection`: no line carries the end marker of `name`. */
    | SectionNotFound(name: string)
      /** `setsection`: the first end marker of `name` has no begin marker before it. */
    | SectionStartMissing(name: string)
      /** Opening a template reference that was never set (`open(None)`). */
    | TemplateUnset
      /** Opening a template file that does not exist. */
    | TemplateUnreadable(path: string)
      /** The rendering engine raised while rendering. */
    | RenderFailed(message: string)

  datatype Option<+T> = None | Some(value: T)

  /** A value or the exception raised instead; usable with `:-`. */
  datatype Result<+T> = Ok(value: T) | Fail(error: Error) {

    predicate IsFailure() {
      Fail?
    }

    function PropagateFailure<U>(): Result<U>
      requires Fail?
    {
      Fail(error)
    }

    function Extract(): T
      requires Ok?
    {
      value
    }
  }
}

=== FILE: pipeline.dfy ===
/** The `__call__` of the sectioned template classes: read the target file,
    produce the generated buffer (the template file itself, or what Jinja or
    DTML renders from it), merge the two with `handlesections`, write the
    result to the target. Files are an abstract map from paths to lines and
    the rendering engine is a function the caller supplies. */
module Pipeline {

  import opened Outcomes
  import opened Text
  import opened Markers
  import opened Scanner
  import opened Merge
  import opened Render
  import opened Layouts

  type Path = string

  /** The files there are, each as the lines `readlines` gives. */
  type FileSystem = map<Path, Lines>

  /** A rendering engine: template text and parameters to rendered text, or
      the exception it raises. */
  type Renderer<!V> = (string, map<string, V>) -> Result<string>

  /** `existentbuffer(target)`: the lines of the file, or no lines when it
      cannot be opened. */
  function ExistentBuffer(fs: FileSystem, target: Path): (lines: Lines)
    ensures target !in fs ==> lines == []
  {
    if target in fs then fs[target] else []
  }

  /** `write(buffer)`: the target file holds exactly the buffer afterwards. */
  function Write(fs: FileSystem, target: Path, buffer: Lines): (after: FileSystem)
    ensures after.Keys == fs.Keys + {target}
  {
    fs[target := buffer]
  }

  /** Reading back a written file gives what was written, and every other
      file reads as before. */
  lemma {:induction false} WriteThenRead(fs: FileSystem, target: Path, buffer: Lines, other: Path)
    ensures ExistentBuffer(Write(fs, target, buffer), target) == buffer
    ensures other != target ==> ExistentBuffer(Write(fs, target, buffer), other) == ExistentBuffer(fs, other)
  {
  }

  /** `open(self.template).read()`: the whole text of the template file;
      opening an unset reference or a missing file raises. */
  function TemplateText(fs: FileSystem, template: Option<Path>): (r: Result<string>)
    ensures template.None? ==> r == Fail(TemplateUnset)
    ensures template.Some? && template.value !in fs ==> r == Fail(TemplateUnreadable(template.value))
    ensures r.Ok? ==> template.Some? && template.value in fs && r.value == Concat(fs[template.value])
  {
    if template.None? then Fail(TemplateUnset)
    else if template.value !in fs then Fail(TemplateUnreadable(template.value))
    else Ok(Concat(fs[template.value]))
  }

  /** `execjinja`: render the template text with the user parameters under
      the built-ins, and cut the result into lines that each end in a line
      feed and together hold the rendered text plus one line feed. */
  function ExecJinja<V>(fs: FileSystem, template: Option<Path>, params: map<string, V>,
                        builtins: map<string, V>, render: Renderer<V>): (r: Result<Lines>)
    ensures TemplateText(fs, template).Fail? ==> r == Fail(TemplateText(fs, template).error)
    ensures r.Ok? ==>
      var out := render(TemplateText(fs, template).value, RenderParams(params, builtins));
      && out.Ok?
      && Concat(r.value) == out.value + [LF]
      && |r.value| == CountChar(out.value, LF) + 1
      && (forall i :: 0 <= i < |r.value| ==>
            |r.value[i]| > 0 && r.value[i][|r.value[i]| - 1] == LF && LF !in r.value[i][..|r.value[i]| - 1])
    ensures r.Fail? && TemplateText(fs, template).Ok? ==>
      render(TemplateText(fs, template).value, RenderParams(params, builtins)) == Fail(r.error)
  {
    var text :- TemplateText(fs, template);
    var out :- render(text, RenderParams(params, builtins));
    JinjaLinesText(out);
    Ok(JinjaLines(out))
  }

  /** `execdtml`: render the template text with the user parameters under
      the built-ins, and read the result back as `readlines` does: the lines
      hold exactly the rendered text. */
  function ExecDtml<V>(fs: FileSystem, template: Option<Path>, params: map<string, V>,
                       builtins: map<string, V>, render: Renderer<V>): (r: Result<Lines>)
    ensures TemplateText(fs, template).Fail? ==> r == Fail(TemplateText(fs, template).error)
    ensures r.Ok? ==>
      var out := render(TemplateText(fs, template).value, RenderParams(params, builtins));
      out.Ok? && Concat(r.value) == out.value && ReadForm(r.value)
    ensures r.Fail? && TemplateText(fs, template).Ok? ==>
      render(TemplateText(fs, template).value, RenderParams(params, builtins)) == Fail(r.error)
  {
    var text :- TemplateText(fs, template);
    var out :- render(text, RenderParams(params, builtins));
    ReadLinesText(out);
    Ok(ReadLines(out))
  }

  /** The template classes with a `__call__`: `SectionedTemplate` (the
      template file is the generated buffer), `JinjaTemplate`,
      `DTMLTemplate`, and `XMLTemplate` (DTML with the XML markers). */
  datatype Family = Sectioned | Jinja | Dtml | XmlDtml

  /** The two copies of the classes: `template.py`, whose Jinja and DTML
      `__call__` do nothing while no template is set, and `_api.py`, whose
      do not check. */
  datatype Variant = Guarded | Unguarded

  /** The marker syntax of a family. */
  function SyntaxOf(family: Family): Syntax {
    if family == XmlDtml then Xml else Default
  }

  /** A template object: its class, the output file (`abspath`), the
      template reference (`self.template`, unset as `None`) and its
      parameters (`self.params`). */
  datatype Template<V> = Template(family: Family, target: Path, template: Option<Path>, params: map<string, V>)

  /** `not self.template`: no reference, or the empty one. */
  predicate Unset(template: Option<Path>) {
    template.None? || template.value == ""
  }

  /** The call returns at once without touching any file. */
  predicate Skips<V>(v: Variant, t: Template<V>) {
    v == Guarded && t.family != Sectioned && Unset(t.template)
  }

  /** The generated buffer a template object produces. */
  function Generate<V>(fs: FileSystem, t: Template<V>, builtins: map<string, V>, render: Renderer<V>): (r: Result<Lines>)
    ensures t.template.None? ==> r == Fail(TemplateUnset)
    ensures t.family == Sectioned && t.template.Some? ==> r == Ok(ExistentBuffer(fs, t.template.value))
  {
    match t.family
    case Sectioned => if t.template.None? then Fail(TemplateUnset) else Ok(ExistentBuffer(fs, t.template.value))
    case Jinja => ExecJinja(fs, t.template, t.params, builtins, render)
    case _ => ExecDtml(fs, t.template, t.params, builtins, render)
  }

  /** What a call leaves behind: the files, and the exception it raised if any. */
  datatype Outcome = Outcome(fs: FileSystem, raised: Option<Error>)

  /** `__call__`: unless it skips, write
      `handlesections(existentbuffer(abspath), generated)` to the target.
      Any exception comes before the write, so a call that raises leaves
      every file as it was, and a call that does not raise changes the
      target file at most. */
  function Call<V>(v: Variant, t: Template<V>, fs: FileSystem, builtins: map<string, V>, render: Renderer<V>): (out: Outcome)
    ensures Skips(v, t) ==> out == Outcome(fs, None)
    ensures out.raised.Some? ==> out.fs == fs
    ensures forall p :: p != t.target ==> (p in out.fs <==> p in fs)
    ensures forall p :: p != t.target && p in fs ==> out.fs[p] == fs[p]
    ensures !Skips(v, t) ==>
      (out.raised.None? <==>
         Generate(fs, t, builtins, render).Ok?
         && HandleSections(SyntaxOf(t.family), ExistentBuffer(fs, t.target), Generate(fs, t, builtins, render).value).Ok?)
    ensures !Skips(v, t) && out.raised.None? ==>
      t.target in out.fs
      && out.fs[t.target] == HandleSections(SyntaxOf(t.family), ExistentBuffer(fs, t.target), Generate(fs, t, builtins, render).value).value
  {
    if Skips(v, t) then Outcome(fs, None)
    else
      var existent := ExistentBuffer(fs, t.target);
      var generated := Generate(fs, t, builtins, render);
      if generated.Fail? then Outcome(fs, Some(generated.error))
      else
        var merged := HandleSections(SyntaxOf(t.family), existent, generated.value);
        if merged.Fail? then Outcome(fs, Some(merged.error))
        else Outcome(Write(fs, t.target, merged.value), None)
  }

  // ----- properties of a call ---------------------------------------------------

  /** The two copies differ only while no template is set: the guarded one
      then does nothing, while the unguarded Jinja and DTML calls raise
      because they open the template reference anyway. */
  lemma {:induction false} UnsetTemplate<V>(t: Template<V>, fs: FileSystem, builtins: map<string, V>, render: Renderer<V>)
    requires t.family != Sectioned && t.template.None?
    ensures Call(Guarded, t, fs, builtins, render) == Outcome(fs, None)
    ensures Call(Unguarded, t, fs, builtins, render) == Outcome(fs, Some(TemplateUnset))
  {
  }

  /** `not self.template` also holds for the empty reference, but the plain
      sectioned class has no guard: it opens the empty path, which fails and
      reads as no lines, and merges the target into that empty buffer. So a
      well-formed target is emptied, and a malformed one makes the call raise. */
  lemma {:induction false} EmptyReference<V>(v: Variant, t: Template<V>, fs: FileSystem, builtins: map<string, V>, render: Renderer<V>)
    requires t.family == Sectioned && t.template == Some("") && "" !in fs
    ensures Call(v, t, fs, builtins, render)
      == if WellFormed(Default, ExistentBuffer(fs, t.target)) then Outcome(fs[t.target := []], None)
         else Outcome(fs, Some(SectionEndMissing))
  {
    HandleSectionsOutcome(Default, ExistentBuffer(fs, t.target), []);
  }

  /** With no target file yet, a call writes the generated buffer as it is,
      provided it is well formed, and raises otherwise. */
  lemma {:induction false} FirstRun<V>(v: Variant, t: Template<V>, fs: FileSystem, builtins: map<string, V>, render: Renderer<V>)
    requires !Skips(v, t) && t.target !in fs
    requires Generate(fs, t, builtins, render).Ok?
    ensures var g := Generate(fs, t, builtins, render).value;
      Call(v, t, fs, builtins, render)
        == if WellFormed(SyntaxOf(t.family), g) then Outcome(fs[t.target := g], None)
           else Outcome(fs, Some(SectionEndMissing))
  {
    HandleSectionsOutcome(SyntaxOf(t.family), [], Generate(fs, t, builtins, render).value);
  }

  /** A generated buffer only the target differs on reads the same. */
  lemma {:induction false} GenerateFrame<V>(fs: FileSystem, t: Template<V>, buffer: Lines, builtins: map<string, V>, render: Renderer<V>)
    requires t.template.Some? ==> t.template.value != t.target
    ensures Generate(fs[t.target := buffer], t, builtins, render) == Generate(fs, t, builtins, render)
  {
    var fs' := fs[t.target := buffer];
    if t.template.Some? {
      var p := t.template.value;
      assert (p in fs' <==> p in fs) && (p in fs ==> fs'[p] == fs[p]);
      assert TemplateText(fs', t.template) == TemplateText(fs, t.template);
    }
  }

  /** Calling a template object twice in a row does what calling it once
      does, when the template file is not the target, the generated buffer
      is a structured layout and the target file's sections fit it: the
      second call reads back the merge and merges it onto itself. */
  lemma {:induction false} CallIdempotent<V>(v: Variant, t: Template<V>, fs: FileSystem, g: Layout,
                                             builtins: map<string, V>, render: Renderer<V>)
    requires !Skips(v, t)
    requires t.template.Some? ==> t.template.value != t.target
    requires Generate(fs, t, builtins, render) == Ok(Flatten(g))
    requires Structured(SyntaxOf(t.family), g)
    requires Fits(SyntaxOf(t.family), ExistentBuffer(fs, t.target), g)
    ensures var once := Call(v, t, fs, builtins, render);
      once.raised.None? && Call(v, t, once.fs, builtins, render) == once
  {
    var syn := SyntaxOf(t.family);
    var existent := ExistentBuffer(fs, t.target);
    var merged: Lines :| HandleSections(syn, existent, Flatten(g)) == Ok(merged)
      && HandleSections(syn, merged, Flatten(g)) == Ok(merged) by {
      MergeTwice(syn, existent, g);
    }
    CallStable(v, t, fs, builtins, render, Flatten(g), merged);
  }

  /** A call whose merge, merged again, stays as it is, does nothing more
      when repeated. */
  lemma {:induction false} CallStable<V>(v: Variant, t: Template<V>, fs: FileSystem, builtins: map<string, V>,
                                         render: Renderer<V>, generated: Lines, merged: Lines)
    requires !Skips(v, t)
    requires t.template.Some? ==> t.template.value != t.target
    requires Generate(fs, t, builtins, render) == Ok(generated)
    requires HandleSections(SyntaxOf(t.family), ExistentBuffer(fs, t.target), generated) == Ok(merged)
    requires HandleSections(SyntaxOf(t.family), merged, generated) == Ok(merged)
    ensures Call(v, t, fs, builtins, render) == Outcome(fs[t.target := merged], None)
    ensures Call(v, t, fs[t.target := merged], builtins, render) == Outcome(fs[t.target := merged], None)
  {
    var fs1 := fs[t.target := merged];
    assert Call(v, t, fs, builtins, render) == Outcome(fs1, None) by {
      CallWrites(v, t, fs, builtins, render, generated, merged);
    }
    assert Generate(fs1, t, builtins, render) == Ok(generated) by {
      GenerateFrame(fs, t, merged, builtins, render);
    }
    assert ExistentBuffer(fs1, t.target) == merged;
    assert Call(v, t, fs1, builtins, render) == Outcome(fs1[t.target := merged], None) by {
      CallWrites(v, t, fs1, builtins, render, generated, merged);
    }
    assert fs1[t.target := merged] == fs1;
  }

  /** A call whose generation and merge succeed writes the merge. */
  lemma {:induction false} CallWrites<V>(v: Variant, t: Template<V>, fs: FileSystem, builtins: map<string, V>,
                                         render: Renderer<V>, generated: Lines, merged: Lines)
    requires !Skips(v, t)
    requires Generate(fs, t, builtins, render) == Ok(generated)
    requires HandleSections(SyntaxOf(t.family), ExistentBuffer(fs, t.target), generated) == Ok(merged)
    ensures Call(v, t, fs, builtins, render) == Outcome(fs[t.target := merged], None)
  {
  }
}

=== FILE: render.dfy ===
/** What the renderers hand to the merge: the parameter map a template is
    rendered with, and the two ways rendered text becomes a line buffer
    (`execjinja` splits on line feeds and puts one back on every piece;
    `execdtml` uses `StringIO(text).readlines()`). */
module Render {

  import opened Text

  const LF: char := '\n'

  // ----- parameters -------------------------------------------------------------

  /** `params = self.params.copy(); params.update(__builtins__)`: every user
      parameter and every built-in name, a built-in winning over a user
      parameter of the same name. The user map itself is a value and stays
      as it was. */
  function RenderParams<V>(user: map<string, V>, builtins: map<string, V>): (params: map<string, V>)
    ensures params.Keys == user.Keys + builtins.Keys
    ensures forall k :: k in builtins ==> params[k] == builtins[k]
    ensures forall k :: k in user && k !in builtins ==> params[k] == user[k]
  {
    user + builtins
  }

  // ----- unicode.split(u"\n") ---------------------------------------------------

  /** `text.split(sep)` for a one-character separator: the pieces between
      separators, the empty text giving one empty piece. */
  function Split(text: string, sep: char): (pieces: seq<string>)
    ensures |pieces| == CountChar(text, sep) + 1
    ensures forall i :: 0 <= i < |pieces| ==> sep !in pieces[i]
    decreases |text|
  {
    if |text| == 0 then [""]
    else
      var rest := Split(text[1..], sep);
      if text[0] == sep then [""] + rest
      else [[text[0]] + rest[0]] + rest[1..]
  }

  /** `sep.join(pieces)`. */
  function Join(pieces: seq<string>, sep: char): string
    requires |pieces| > 0
    decreases |pieces|
  {
    if |pieces| == 1 then pieces[0] else pieces[0] + [sep] + Join(pieces[1..], sep)
  }

  /** Joining the pieces of a split gives the text back. */
  lemma {:induction false} SplitJoin(text: string, sep: char)
    ensures Join(Split(text, sep), sep) == text
    decreases |text|
  {
    if |text| > 0 {
      var rest := Split(text[1..], sep);
      SplitJoin(text[1..], sep);
      if text[0] == sep {
        assert Split(text, sep) == [""] + rest;
        assert ([""] + rest)[1..] == rest;
        assert text == [sep] + text[1..];
      } else {
        var ps := Split(text, sep);
        assert ps == [[text[0]] + rest[0]] + rest[1..];
        if |rest| == 1 {
          assert text == [text[0]] + rest[0];
        } else {
          assert ps[1..] == rest[1..];
          assert Join(rest, sep) == rest[0] + [sep] + Join(rest[1..], sep);
          assert text == [text[0]] + text[1..];
        }
      }
    }
  }

  /** Splitting separator-free pieces joined by the separator gives the pieces back. */
  lemma {:induction false} JoinSplit(pieces: seq<string>, sep: char)
    requires |pieces| > 0
    requires forall i :: 0 <= i < |pieces| ==> sep !in pieces[i]
    ensures Split(Join(pieces, sep), sep) == pieces
    decreases |pieces|, |pieces[0]|
  {
    var p := pieces[0];
    if |p| == 0 {
      if |pieces| > 1 {
        var tail := Join(pieces[1..], sep);
        JoinSplit(pieces[1..], sep);
        assert Join(pieces, sep) == [sep] + tail;
        assert ([sep] + tail)[1..] == tail;
        assert pieces == [""] + pieces[1..];
      }
    } else {
      var shorter := pieces[0 := p[1..]];
      assert sep !in p[1..];
      JoinSplit(shorter, sep);
      var text := Join(pieces, sep);
      assert shorter[1..] == pieces[1..];
      if |pieces| == 1 {
        assert text == p && text[1..] == p[1..];
      } else {
        assert text == p + [sep] + Join(pieces[1..], sep);
        assert text[1..] == Join(shorter, sep);
      }
      assert text[0] == p[0];
      assert p == [p[0]] + p[1..];
    }
  }

  // ----- execjinja --------------------------------------------------------------

  /** `[line + u"\n" for line in text.split(u"\n")]` */
  function JinjaLines(text: string): (lines: Lines)
    ensures |lines| == CountChar(text, LF) + 1
    ensures forall i :: 0 <= i < |lines| ==>
      |lines[i]| > 0 && lines[i][|lines[i]| - 1] == LF && LF !in lines[i][..|lines[i]| - 1]
  {
    var pieces := Split(text, LF);
    seq(|pieces|, i requires 0 <= i < |pieces| => pieces[i] + [LF])
  }

  /** Every piece of a split followed by a line feed, concatenated. */
  lemma {:induction false} ConcatTerminated(pieces: seq<string>)
    requires |pieces| > 0
    ensures Concat(seq(|pieces|, i requires 0 <= i < |pieces| => pieces[i] + [LF])) == Join(pieces, LF) + [LF]
    decreases |pieces|
  {
    var lines := seq(|pieces|, i requires 0 <= i < |pieces| => pieces[i] + [LF]);
    if |pieces| > 1 {
      var rest := seq(|pieces| - 1, i requires 0 <= i < |pieces| - 1 => pieces[1..][i] + [LF]);
      assert lines[1..] == rest;
      ConcatTerminated(pieces[1..]);
    }
  }

  /** The lines `execjinja` returns hold the rendered text followed by one
      line feed. */
  lemma {:induction false} JinjaLinesText(text: string)
    ensures Concat(JinjaLines(text)) == text + [LF]
  {
    ConcatTerminated(Split(text, LF));
    SplitJoin(text, LF);
  }

  // ----- StringIO.readlines -----------------------------------------------------

  /** Index of the first `c` in `s`, or `|s|`. */
  function IndexOf(s: string, c: char): (k: nat)
    ensures k <= |s|
    ensures k < |s| ==> s[k] == c
    ensures c !in s[..k]
    decreases |s|
  {
    if |s| == 0 || s[0] == c then 0
    else
      var k := 1 + IndexOf(s[1..], c);
      assert s[..k] == [s[0]] + s[1..][..k - 1];
      k
  }

  /** `StringIO(text).readlines()`: the text cut after every line feed, each
      line keeping its line feed, a last line without one when the text does
      not end in a line feed, nothing for the empty text. */
  function ReadLines(text: string): (lines: Lines)
    ensures forall i :: 0 <= i < |lines| ==> |lines[i]| > 0 && LF !in lines[i][..|lines[i]| - 1]
    ensures forall i :: 0 <= i < |lines| - 1 ==> lines[i][|lines[i]| - 1] == LF
    decreases |text|
  {
    if |text| == 0 then []
    else
      var k := IndexOf(text, LF);
      if k == |text| then [text]
      else
        assert text[..k + 1][..k] == text[..k];
        [text[..k + 1]] + ReadLines(text[k + 1..])
  }

  /** The lines `readlines` returns hold the text. */
  lemma {:induction false} ReadLinesText(text: string)
    ensures Concat(ReadLines(text)) == text
    decreases |text|
  {
    if |text| > 0 {
      var k := IndexOf(text, LF);
      if k < |text| {
        ReadLinesText(text[k + 1..]);
        assert text == text[..k + 1] + text[k + 1..];
      }
    }
  }

  /** Lines as `readlines` produces them: none empty, a line feed only at
      the end of a line, and at the end of every line but the last. */
  predicate ReadForm(lines: Lines) {
    && (forall i :: 0 <= i < |lines| ==> |lines[i]| > 0 && LF !in lines[i][..|lines[i]| - 1])
    && (forall i :: 0 <= i < |lines| - 1 ==> lines[i][|lines[i]| - 1] == LF)
  }

  /** Reading lines back from their text gives the same lines. */
  lemma {:induction false} ReadLinesOfText(lines: Lines)
    requires ReadForm(lines)
    ensures ReadLines(Concat(lines)) == lines
    decreases |lines|
  {
    if |lines| > 0 {
      var l := lines[0];
      var rest := Concat(lines[1..]);
      var text := l + rest;
      assert Concat(lines) == text;
      assert ReadForm(lines[1..]) by {
        forall i | 0 <= i < |lines[1..]|
          ensures |lines[1..][i]| > 0 && LF !in lines[1..][i][..|lines[1..][i]| - 1]
        {
          assert lines[1..][i] == lines[i + 1];
        }
        forall i | 0 <= i < |lines[1..]| - 1
          ensures lines[1..][i][|lines[1..][i]| - 1] == LF
        {
          assert lines[1..][i] == lines[i + 1];
        }
      }
      ReadLinesOfText(lines[1..]);
      ReadStep(l, rest);
    }
  }

  /** `readlines` takes a first line that ends at its only line feed, or
      that is all the text there is. */
  lemma {:induction false} ReadStep(l: string, rest: string)
    requires |l| > 0 && LF !in l[..|l| - 1]
    requires l[|l| - 1] == LF || rest == ""
    ensures ReadLines(l + rest) == [l] + ReadLines(rest)
  {
    var text := l + rest;
    var k := IndexOf(text, LF);
    assert forall j :: 0 <= j < |l| - 1 ==> text[j] == l[..|l| - 1][j];
    if l[|l| - 1] == LF {
      assert text[|l| - 1] == LF;
      assert k == |l| - 1;
      assert text[..k + 1] == l && text[k + 1..] == rest;
    } else {
      assert text == l && LF !in l;
      assert k == |text|;
    }
  }

  /** The lines `execjinja` makes are the lines `readlines` would read from
      the rendered text followed by a line feed. */
  lemma {:induction false} JinjaLinesRead(text: string)
    ensures JinjaLines(text) == ReadLines(text + [LF])
  {
    var lines := JinjaLines(text);
    assert ReadForm(lines);
    JinjaLinesText(text);
    ReadLinesOfText(lines);
  }
}

=== FILE: scanner.dfy ===
/** `CodeSectionHandler.sectionnames`: the names of the sections of a buffer,
    top to bottom, and the well-formedness check made on the way. */
module Scanner {

  import opened Outcomes
  import opened Text
  import opened Markers

  /** The name read off every begin-token line, top to bottom, duplicates kept. */
  function BeginNames(syn: Syntax, lines: Lines): seq<string> {
    if |lines| == 0 then []
    else
      var here := if OpensSection(syn, lines[0]) then [ExtractName(syn, lines[0])] else [];
      here + BeginNames(syn, lines[1..])
  }

  /** The loop of `sectionnames` from the current line on; `open` is the name
      of the section an earlier line left open (`names[-1]` while `section`
      is set). A begin token while a section is open, or a section still
      open when the lines run out, raises. */
  function Scan(syn: Syntax, lines: Lines, open: Option<string>): (r: Result<seq<string>>)
    ensures r.Ok? ==> r.value == BeginNames(syn, lines)
    ensures r.Fail? ==> r.error == SectionEndMissing
    decreases |lines|
  {
    if |lines| == 0 then
      if open.Some? then Fail(SectionEndMissing) else Ok([])
    else
      var line := lines[0];
      if OpensSection(syn, line) then
        if open.Some? then Fail(SectionEndMissing)
        else
          var name := ExtractName(syn, line);
          // the close test also runs on the begin line itself
          var rest := Scan(syn, lines[1..], if IsEnd(syn, line, name) then None else Some(name));
          if rest.Fail? then rest else Ok([name] + rest.value)
      else
        var still := if open.Some? && IsEnd(syn, line, open.value) then None else open;
        Scan(syn, lines[1..], still)
  }

  /** The begin-token line at `i` is followed, at or after `i` and before the
      next begin-token line, by a line closing the section it names. */
  predicate ClosesBeforeNext(syn: Syntax, lines: Lines, i: nat)
    requires i < |lines| && OpensSection(syn, lines[i])
  {
    FirstIndex(lines[i..], EndPattern(syn, ExtractName(syn, lines[i])))
      <= FirstIndex(lines[i + 1..], syn.begin)
  }

  /** Every section a begin-token line opens is closed before the next one opens. */
  predicate WellFormed(syn: Syntax, lines: Lines) {
    forall i :: 0 <= i < |lines| && OpensSection(syn, lines[i]) ==> ClosesBeforeNext(syn, lines, i)
  }

  /** A section left open above `lines` is closed before any begin token. */
  predicate ClosesInTime(syn: Syntax, lines: Lines, open: Option<string>) {
    open.Some? ==> FirstIndex(lines, EndPattern(syn, open.value)) < FirstIndex(lines, syn.begin)
  }

  /** `sectionnames`: raises exactly on buffers that are not well formed, and
      otherwise returns the name of every begin-token line in order. */
  function SectionNames(syn: Syntax, lines: Lines): (r: Result<seq<string>>)
    ensures r.Ok? <==> WellFormed(syn, lines)
    ensures r.Ok? ==> r.value == BeginNames(syn, lines)
    ensures r.Fail? ==> r.error == SectionEndMissing
  {
    ScanSucceeds(syn, lines, None);
    Scan(syn, lines, None)
  }

  /** Well-formedness splits into the first line and the rest. */
  lemma {:induction false} WellFormedCons(syn: Syntax, lines: Lines)
    requires |lines| > 0
    ensures WellFormed(syn, lines) <==>
      (OpensSection(syn, lines[0]) ==> ClosesBeforeNext(syn, lines, 0)) && WellFormed(syn, lines[1..])
  {
    var t := lines[1..];
    forall i | 1 <= i < |lines| && OpensSection(syn, lines[i])
      ensures ClosesBeforeNext(syn, lines, i) == ClosesBeforeNext(syn, t, i - 1)
    {
      assert lines[i] == t[i - 1];
      assert lines[i..] == t[i - 1..];
      assert lines[i + 1..] == t[i..];
    }
    if WellFormed(syn, lines) {
      forall j | 0 <= j < |t| && OpensSection(syn, t[j])
        ensures ClosesBeforeNext(syn, t, j)
      {
        assert t[j] == lines[j + 1];
      }
    }
    if (OpensSection(syn, lines[0]) ==> ClosesBeforeNext(syn, lines, 0)) && WellFormed(syn, t) {
      forall i | 0 <= i < |lines| && OpensSection(syn, lines[i])
        ensures ClosesBeforeNext(syn, lines, i)
      {
        if i > 0 {
          assert t[i - 1] == lines[i];
        }
      }
    }
  }

  /** The scan succeeds exactly when the section left open above is closed in
      time and every section opened below is closed before the next opens. */
  lemma {:induction false} ScanSucceeds(syn: Syntax, lines: Lines, open: Option<string>)
    ensures Scan(syn, lines, open).Ok? <==> ClosesInTime(syn, lines, open) && WellFormed(syn, lines)
    decreases |lines|
  {
    if |lines| > 0 {
      var line := lines[0];
      var t := lines[1..];
      assert WellFormed(syn, lines) <==>
        (OpensSection(syn, line) ==> ClosesBeforeNext(syn, lines, 0)) && WellFormed(syn, t) by {
        WellFormedCons(syn, lines);
      }
      if OpensSection(syn, line) {
        if open.None? {
          var name := ExtractName(syn, line);
          var next := if IsEnd(syn, line, name) then None else Some(name);
          ScanSucceeds(syn, t, next);
          OpeningInTime(syn, lines);
        } else {
          assert FirstIndex(lines, syn.begin) == 0;
        }
      } else {
        var still := if open.Some? && IsEnd(syn, line, open.value) then None else open;
        ScanSucceeds(syn, t, still);
        PlainInTime(syn, lines, open);
      }
    }
  }

  /** After a begin-token line, the section it opens is closed in time
      exactly when it is closed before the next begin-token line. */
  lemma {:induction false} OpeningInTime(syn: Syntax, lines: Lines)
    requires |lines| > 0 && OpensSection(syn, lines[0])
    ensures var name := ExtractName(syn, lines[0]);
      ClosesInTime(syn, lines[1..], if IsEnd(syn, lines[0], name) then None else Some(name))
      <==> ClosesBeforeNext(syn, lines, 0)
  {
    assert lines[0..] == lines;
  }

  /** A line without the begin token passes the open section on, closed if
      the line closes it. */
  lemma {:induction false} PlainInTime(syn: Syntax, lines: Lines, open: Option<string>)
    requires |lines| > 0 && !OpensSection(syn, lines[0])
    ensures var still := if open.Some? && IsEnd(syn, lines[0], open.value) then None else open;
      ClosesInTime(syn, lines[1..], still) <==> ClosesInTime(syn, lines, open)
  {
  }

  /** Every name in the list comes from some begin-token line. */
  lemma {:induction false} NameHasLine(syn: Syntax, lines: Lines, name: string)
    requires name in BeginNames(syn, lines)
    ensures exists i :: 0 <= i < |lines| && OpensSection(syn, lines[i]) && ExtractName(syn, lines[i]) == name
    decreases |lines|
  {
    if !(OpensSection(syn, lines[0]) && ExtractName(syn, lines[0]) == name) {
      NameHasLine(syn, lines[1..], name);
      var i :| 0 <= i < |lines[1..]| && OpensSection(syn, lines[1..][i]) && ExtractName(syn, lines[1..][i]) == name;
      assert lines[i + 1] == lines[1..][i];
    }
  }

  /** In a well-formed buffer every listed section has an end marker somewhere. */
  lemma {:induction false} EveryNameCloses(syn: Syntax, lines: Lines, name: string)
    requires WellFormed(syn, lines)
    requires name in BeginNames(syn, lines)
    ensures FirstIndex(lines, EndPattern(syn, name)) < |lines|
  {
    NameHasLine(syn, lines, name);
    var i :| 0 <= i < |lines| && OpensSection(syn, lines[i]) && ExtractName(syn, lines[i]) == name;
    assert ClosesBeforeNext(syn, lines, i);
    var j := FirstIndex(lines[i..], EndPattern(syn, name));
    assert j < |lines[i..]|;
    assert lines[i + j] == lines[i..][j];
  }
}

=== FILE: store.dfy ===
/** `CodeSectionHandler.getsection` and `setsection`: reading and replacing
    the lines of one named section of a buffer. */
module Store {

  import opened Outcomes
  import opened Text
  import opened Markers

  /** The lines `getsection` collects from the current line on, given whether
      a begin marker was already seen above (`sectioncontent`). */
  function Collected(syn: Syntax, lines: Lines, name: string, collecting: bool): Lines
    requires FirstIndex(lines, EndPattern(syn, name)) < |lines|
  {
    var e := FirstIndex(lines, EndPattern(syn, name));
    if collecting then lines[..e]
    else
      var s := FirstIndex(lines[..e], BeginPattern(syn, name));
      if s < e then lines[s + 1..e] else []
  }

  /** The loop of `getsection` from the current line on: the end test comes
      first and returns what was collected, a line is collected when a begin
      marker was seen on an earlier line, and running out of lines raises. */
  function GetFrom(syn: Syntax, lines: Lines, name: string, collecting: bool): (r: Result<Lines>)
    ensures r.Fail? <==> FirstIndex(lines, EndPattern(syn, name)) == |lines|
    ensures r.Fail? ==> r.error == SectionNotFound(name)
    ensures r.Ok? ==> r.value == Collected(syn, lines, name, collecting)
    decreases |lines|
  {
    if |lines| == 0 then Fail(SectionNotFound(name))
    else if IsEnd(syn, lines[0], name) then Ok([])
    else
      var rest := GetFrom(syn, lines[1..], name, collecting || IsBegin(syn, lines[0], name));
      if rest.Fail? then rest
      else
        var here := if collecting then [lines[0]] else [];
        CollectedStep(syn, lines, name, collecting);
        Ok(here + rest.value)
  }

  /** One line of `getsection`'s loop, seen through `Collected`. */
  lemma {:induction false} CollectedStep(syn: Syntax, lines: Lines, name: string, collecting: bool)
    requires |lines| > 0 && !IsEnd(syn, lines[0], name)
    requires FirstIndex(lines, EndPattern(syn, name)) < |lines|
    ensures FirstIndex(lines[1..], EndPattern(syn, name)) < |lines[1..]|
    ensures Collected(syn, lines, name, collecting)
      == (if collecting then [lines[0]] else [])
         + Collected(syn, lines[1..], name, collecting || IsBegin(syn, lines[0], name))
  {
    var e := FirstIndex(lines, EndPattern(syn, name));
    var t := lines[1..];
    assert FirstIndex(t, EndPattern(syn, name)) == e - 1;
    assert lines[..e][1..] == t[..e - 1];
    if collecting {
      assert lines[..e] == [lines[0]] + t[..e - 1];
    } else if IsBegin(syn, lines[0], name) {
      assert FirstIndex(lines[..e], BeginPattern(syn, name)) == 0;
      assert lines[1..e] == t[..e - 1];
    } else {
      var s' := FirstIndex(t[..e - 1], BeginPattern(syn, name));
      assert FirstIndex(lines[..e], BeginPattern(syn, name)) == 1 + s';
      if s' < e - 1 {
        assert lines[s' + 2..e] == t[s' + 1..e - 1];
      }
    }
  }

  /** `getsection(name)`: the lines strictly between the first begin marker of
      `name` and the first end marker of `name`, markers excluded; nothing
      when that end marker comes before any begin marker; raises when no line
      carries the end marker. */
  function GetSection(syn: Syntax, lines: Lines, name: string): (r: Result<Lines>)
    ensures var e := FirstIndex(lines, EndPattern(syn, name));
      && (e == |lines| ==> r == Fail(SectionNotFound(name)))
      && (e < |lines| ==>
            var s := FirstIndex(lines[..e], BeginPattern(syn, name));
            r == Ok(if s < e then lines[s + 1..e] else []))
  {
    GetFrom(syn, lines, name, false)
  }

  /** The loop of `setsection`: `seen` are the lines already passed (so
      `|seen|` is `index`), `start` the index of the last begin marker among
      them. At the first end marker the lines from just after `start` up to
      the end marker are replaced by `code`; only the two marker errors can
      be raised. */
  function SetFrom(syn: Syntax, seen: Lines, rest: Lines, name: string, code: Lines, start: Option<nat>): (r: Result<Lines>)
    requires start.Some? ==> start.value < |seen|
    ensures r.Fail? ==> r.error == SectionNotFound(name) || r.error == SectionStartMissing(name)
    decreases |rest|
  {
    if |rest| == 0 then Fail(SectionNotFound(name))
    else if IsEnd(syn, rest[0], name) then
      if start.None? then Fail(SectionStartMissing(name))
      else Ok(seen[..start.value + 1] + code + rest)
    else
      SetFrom(syn, seen + [rest[0]], rest[1..], name, code, if IsBegin(syn, rest[0], name) then Some(|seen|) else start)
  }

  /** What the loop of `setsection` yields with `seen` passed and `rest` ahead,
      when `start` is the last begin marker among the lines passed: the first
      end marker `e` ahead decides whether it raises, and otherwise the lines
      after the last begin marker above `e` and before `e` are replaced by
      `code`. */
  predicate SetOutcome(syn: Syntax, seen: Lines, rest: Lines, name: string, code: Lines, r: Result<Lines>) {
    var e := FirstIndex(rest, EndPattern(syn, name));
    var whole := seen + rest;
    && (e == |rest| ==> r == Fail(SectionNotFound(name)))
    && (e < |rest| ==>
          var s := LastIndex(whole[..|seen| + e], BeginPattern(syn, name));
          && (s.None? ==> r == Fail(SectionStartMissing(name)))
          && (s.Some? ==> r == Ok(whole[..s.value + 1] + code + whole[|seen| + e..])))
  }

  /** The loop of `setsection` computes `SetOutcome`. */
  lemma {:induction false} SetFromResult(syn: Syntax, seen: Lines, rest: Lines, name: string, code: Lines, start: Option<nat>)
    requires start == LastIndex(seen, BeginPattern(syn, name))
    ensures SetOutcome(syn, seen, rest, name, code, SetFrom(syn, seen, rest, name, code, start))
    decreases |rest|
  {
    if |rest| == 0 {
    } else if IsEnd(syn, rest[0], name) {
      SetFromAtEnd(syn, seen, rest, name, code, start);
    } else {
      var seen' := seen + [rest[0]];
      var start' := if IsBegin(syn, rest[0], name) then Some(|seen|) else start;
      assert LastIndex(seen', BeginPattern(syn, name)) == start' by {
        assert seen'[..|seen|] == seen;
        assert seen'[|seen|] == rest[0];
      }
      SetFromResult(syn, seen', rest[1..], name, code, start');
      SetOutcomeStep(syn, seen, rest, name, code, SetFrom(syn, seen, rest, name, code, start));
    }
  }

  /** At the first end marker the loop of `setsection` computes `SetOutcome`. */
  lemma {:induction false} SetFromAtEnd(syn: Syntax, seen: Lines, rest: Lines, name: string, code: Lines, start: Option<nat>)
    requires start == LastIndex(seen, BeginPattern(syn, name))
    requires |rest| > 0 && IsEnd(syn, rest[0], name)
    ensures SetOutcome(syn, seen, rest, name, code, SetFrom(syn, seen, rest, name, code, start))
  {
    assert FirstIndex(rest, EndPattern(syn, name)) == 0;
    assert (seen + rest)[..|seen|] == seen;
    assert (seen + rest)[|seen|..] == rest;
    if start.Some? {
      assert (seen + rest)[..start.value + 1] == seen[..start.value + 1];
    }
  }

  /** Passing a line with no end marker leaves the outcome as it was. */
  lemma {:induction false} SetOutcomeStep(syn: Syntax, seen: Lines, rest: Lines, name: string, code: Lines, r: Result<Lines>)
    requires |rest| > 0 && !IsEnd(syn, rest[0], name)
    requires SetOutcome(syn, seen + [rest[0]], rest[1..], name, code, r)
    ensures SetOutcome(syn, seen, rest, name, code, r)
  {
    assert (seen + [rest[0]]) + rest[1..] == seen + rest;
    assert FirstIndex(rest, EndPattern(syn, name)) == 1 + FirstIndex(rest[1..], EndPattern(syn, name));
  }

  /** `setsection(name, code)`: with `e` the first end marker of `name` and `s`
      the last begin marker of `name` above it, the result is the lines up to
      and including `s`, then `code`, then the lines from `e` on; raises when
      no line carries the end marker or no begin marker precedes it. */
  function SetSection(syn: Syntax, lines: Lines, name: string, code: Lines): (r: Result<Lines>)
    ensures var e := FirstIndex(lines, EndPattern(syn, name));
      && (e == |lines| ==> r == Fail(SectionNotFound(name)))
      && (e < |lines| ==>
            var s := LastIndex(lines[..e], BeginPattern(syn, name));
            && (s.None? ==> r == Fail(SectionStartMissing(name)))
            && (s.Some? ==> r == Ok(lines[..s.value + 1] + code + lines[e..])))
  {
    assert [] + lines == lines;
    SetFromResult(syn, [], lines, name, code, None);
    SetFrom(syn, [], lines, name, code, None)
  }

  /** No line carries a begin or an end marker of `name`. */
  predicate Clear(syn: Syntax, lines: Lines, name: string) {
    forall k :: 0 <= k < |lines| ==> !IsBegin(syn, lines[k], name) && !IsEnd(syn, lines[k], name)
  }

  /** A section of `name` with clear lines around: begin line `b`, clear
      content `c`, end line `e`. */
  predicate SectionAt(syn: Syntax, x: Lines, b: Line, c: Lines, e: Line, name: string) {
    && Clear(syn, x, name)
    && IsBegin(syn, b, name) && !IsEnd(syn, b, name)
    && Clear(syn, c, name)
    && IsEnd(syn, e, name)
  }

  /** In a section framed by clear lines, the first end marker is the end line. */
  lemma {:induction false} SectionEndIndex(syn: Syntax, x: Lines, b: Line, c: Lines, e: Line, y: Lines, name: string)
    requires SectionAt(syn, x, b, c, e, name)
    ensures FirstIndex(x + [b] + c + [e] + y, EndPattern(syn, name)) == |x| + 1 + |c|
  {
    var endPat := EndPattern(syn, name);
    assert x + [b] + c + [e] + y == x + ([b] + (c + ([e] + y)));
    FirstIndexSkip(c, [e] + y, endPat);
    FirstIndexSkip([b], c + ([e] + y), endPat);
    FirstIndexSkip(x, [b] + (c + ([e] + y)), endPat);
  }

  /** In a section framed by clear lines, the begin line is both the first
      and the last begin marker above the end line. */
  lemma {:induction false} SectionBeginIndex(syn: Syntax, x: Lines, b: Line, c: Lines, name: string)
    requires Clear(syn, x, name) && IsBegin(syn, b, name) && Clear(syn, c, name)
    ensures FirstIndex(x + [b] + c, BeginPattern(syn, name)) == |x|
    ensures LastIndex(x + [b] + c, BeginPattern(syn, name)) == Some(|x|)
  {
    var beginPat := BeginPattern(syn, name);
    assert Contains(b, beginPat);
    assert FirstIndex(x + [b] + c, beginPat) == |x| by {
      assert x + [b] + c == x + ([b] + c);
      FirstIndexSkip(x, [b] + c, beginPat);
      MatchFirst(b, c, beginPat);
    }
    assert LastIndex(x + [b] + c, beginPat) == Some(|x|) by {
      LastIndexSkip(x + [b], c, beginPat);
      MatchLast(x, b, beginPat);
    }
  }

  lemma {:induction false} MatchFirst(l: Line, rest: Lines, pat: string)
    requires Contains(l, pat)
    ensures FirstIndex([l] + rest, pat) == 0
  {
    assert ([l] + rest)[0] == l;
  }

  lemma {:induction false} MatchLast(front: Lines, l: Line, pat: string)
    requires Contains(l, pat)
    ensures LastIndex(front + [l], pat) == Some(|front|)
  {
    assert (front + [l])[|front|] == l;
  }

  /** In a section framed by clear lines, the first end marker is the end
      line, the first begin marker before it is the begin line, and so is
      the last one. */
  lemma {:induction false} SectionIndices(syn: Syntax, x: Lines, b: Line, c: Lines, e: Line, y: Lines, name: string)
    requires SectionAt(syn, x, b, c, e, name)
    ensures var whole := x + [b] + c + [e] + y;
      var end := |x| + 1 + |c|;
      && FirstIndex(whole, EndPattern(syn, name)) == end
      && whole[..end] == x + [b] + c
      && FirstIndex(x + [b] + c, BeginPattern(syn, name)) == |x|
      && LastIndex(x + [b] + c, BeginPattern(syn, name)) == Some(|x|)
  {
    SectionEndIndex(syn, x, b, c, e, y, name);
    SectionBeginIndex(syn, x, b, c, name);
    assert (x + [b] + c + [e] + y)[..|x| + 1 + |c|] == x + [b] + c;
  }

  /** `getsection` when the first end marker is at `e` and the first begin marker above it at `s`. */
  lemma {:induction false} GetAt(syn: Syntax, lines: Lines, name: string, s: nat, e: nat)
    requires s < e < |lines| && FirstIndex(lines, EndPattern(syn, name)) == e
    requires FirstIndex(lines[..e], BeginPattern(syn, name)) == s
    ensures GetSection(syn, lines, name) == Ok(lines[s + 1..e])
  {
  }

  /** `setsection` when the first end marker is at `e` and the last begin marker above it at `s`. */
  lemma {:induction false} SetAt(syn: Syntax, lines: Lines, name: string, code: Lines, s: nat, e: nat)
    requires e < |lines| && FirstIndex(lines, EndPattern(syn, name)) == e
    requires LastIndex(lines[..e], BeginPattern(syn, name)) == Some(s)
    ensures SetSection(syn, lines, name, code) == Ok(lines[..s + 1] + code + lines[e..])
  {
  }

  /** `getsection` reads the content of a section framed by clear lines. */
  lemma {:induction false} SectionGet(syn: Syntax, x: Lines, b: Line, c: Lines, e: Line, y: Lines, name: string)
    requires SectionAt(syn, x, b, c, e, name)
    ensures GetSection(syn, x + [b] + c + [e] + y, name) == Ok(c)
  {
    var whole := x + [b] + c + [e] + y;
    var end := |x| + 1 + |c|;
    assert FirstIndex(whole, EndPattern(syn, name)) == end
      && FirstIndex(whole[..end], BeginPattern(syn, name)) == |x| by {
      SectionIndices(syn, x, b, c, e, y, name);
    }
    assert GetSection(syn, whole, name) == Ok(whole[|x| + 1..end]) by {
      GetAt(syn, whole, name, |x|, end);
    }
    assert whole[|x| + 1..end] == c;
  }

  /** `setsection` replaces exactly the content of a section framed by clear
      lines, leaving every other line in place. */
  lemma {:induction false} SectionSet(syn: Syntax, x: Lines, b: Line, c: Lines, e: Line, y: Lines, name: string, code: Lines)
    requires SectionAt(syn, x, b, c, e, name)
    ensures SetSection(syn, x + [b] + c + [e] + y, name, code) == Ok(x + [b] + code + [e] + y)
  {
    var whole := x + [b] + c + [e] + y;
    var end := |x| + 1 + |c|;
    assert FirstIndex(whole, EndPattern(syn, name)) == end
      && LastIndex(whole[..end], BeginPattern(syn, name)) == Some(|x|) by {
      SectionIndices(syn, x, b, c, e, y, name);
    }
    assert SetSection(syn, whole, name, code) == Ok(whole[..|x| + 1] + code + whole[end..]) by {
      SetAt(syn, whole, name, code, |x|, end);
    }
    SpliceFrame(x, b, c, e, y, code);
  }

  /** Cutting a framed buffer after its begin line and at its end line, and
      putting `code` in between, replaces the content. */
  lemma {:induction false} SpliceFrame(x: Lines, b: Line, c: Lines, e: Line, y: Lines, code: Lines)
    ensures var whole := x + [b] + c + [e] + y;
      whole[..|x| + 1] + code + whole[|x| + 1 + |c|..] == x + [b] + code + [e] + y
  {
    var whole := x + [b] + c + [e] + y;
    assert whole[..|x| + 1] == x + [b];
    assert whole[|x| + 1 + |c|..] == [e] + y;
  }

  /** Exactly one begin marker of `name` precedes its first end marker. */
  predicate SingleBegin(syn: Syntax, lines: Lines, name: string) {
    var e := FirstIndex(lines, EndPattern(syn, name));
    && e < |lines|
    && exists s :: 0 <= s < e && IsBegin(syn, lines[s], name)
         && forall k :: 0 <= k < e && k != s ==> !IsBegin(syn, lines[k], name)
  }

  /** A buffer with a single begin marker before the first end marker is a
      section framed by clear lines. */
  lemma {:induction false} SingleBeginSection(syn: Syntax, lines: Lines, name: string)
      returns (s: nat, e: nat)
    requires SingleBegin(syn, lines, name)
    ensures s < e < |lines| && e == FirstIndex(lines, EndPattern(syn, name))
    ensures lines == lines[..s] + [lines[s]] + lines[s + 1..e] + [lines[e]] + lines[e + 1..]
    ensures SectionAt(syn, lines[..s], lines[s], lines[s + 1..e], lines[e], name)
  {
    e := FirstIndex(lines, EndPattern(syn, name));
    s :| 0 <= s < e && IsBegin(syn, lines[s], name)
      && forall k :: 0 <= k < e && k != s ==> !IsBegin(syn, lines[k], name);
    assert lines == lines[..s] + [lines[s]] + lines[s + 1..e] + [lines[e]] + lines[e + 1..] by {
      SplitAround(lines, s, e);
    }
    assert Clear(syn, lines[..s], name) by {
      forall k | 0 <= k < s
        ensures !IsBegin(syn, lines[..s][k], name) && !IsEnd(syn, lines[..s][k], name)
      {
        assert lines[..s][k] == lines[k];
      }
    }
    assert Clear(syn, lines[s + 1..e], name) by {
      var c := lines[s + 1..e];
      forall k | 0 <= k < |c|
        ensures !IsBegin(syn, c[k], name) && !IsEnd(syn, c[k], name)
      {
        assert c[k] == lines[s + 1 + k];
      }
    }
  }

  /** A buffer cut around two of its indices. */
  lemma {:induction false} SplitAround<T>(lines: seq<T>, s: nat, e: nat)
    requires s < e < |lines|
    ensures lines == lines[..s] + [lines[s]] + lines[s + 1..e] + [lines[e]] + lines[e + 1..]
  {
    assert lines[..s] + [lines[s]] == lines[..s + 1];
    assert lines[..s + 1] + lines[s + 1..e] == lines[..e];
    assert lines[..e] + [lines[e]] == lines[..e + 1];
  }

  /** Round trip: after `setsection(name, code)` with `code` clear of
      `name`'s markers, `getsection(name)` returns `code`. */
  lemma {:induction false} SetThenGet(syn: Syntax, lines: Lines, name: string, code: Lines)
    requires SingleBegin(syn, lines, name)
    requires Clear(syn, code, name)
    ensures SetSection(syn, lines, name, code).Ok?
    ensures GetSection(syn, SetSection(syn, lines, name, code).value, name) == Ok(code)
  {
    var s, e := SingleBeginSection(syn, lines, name);
    var x, b, c, end, y := lines[..s], lines[s], lines[s + 1..e], lines[e], lines[e + 1..];
    SectionSet(syn, x, b, c, end, y, name, code);
    SectionGet(syn, x, b, code, end, y, name);
  }

  /** Round trip: writing back what `getsection(name)` read leaves the buffer unchanged. */
  lemma {:induction false} GetThenSet(syn: Syntax, lines: Lines, name: string)
    requires SingleBegin(syn, lines, name)
    ensures GetSection(syn, lines, name).Ok?
    ensures SetSection(syn, lines, name, GetSection(syn, lines, name).value) == Ok(lines)
  {
    var s, e := SingleBeginSection(syn, lines, name);
    SectionGet(syn, lines[..s], lines[s], lines[s + 1..e], lines[e], lines[e + 1..], name);
    SectionSet(syn, lines[..s], lines[s], lines[s + 1..e], lines[e], lines[e + 1..], name, lines[s + 1..e]);
  }

  /** With two begin markers before the first end marker, `getsection` reads
      from the first and `setsection` writes after the last, so writing back
      what was read duplicates the lines between them. */
  lemma {:induction false} TwoBeginsGrow(syn: Syntax, lines: Lines, name: string, s1: nat, s2: nat)
    requires s1 < s2 < FirstIndex(lines, EndPattern(syn, name)) < |lines|
    requires IsBegin(syn, lines[s1], name) && IsBegin(syn, lines[s2], name)
    ensures GetSection(syn, lines, name).Ok?
    ensures var w := SetSection(syn, lines, name, GetSection(syn, lines, name).value);
      w.Ok? && |w.value| > |lines|
  {
    var e := FirstIndex(lines, EndPattern(syn, name));
    var pre := lines[..e];
    assert pre[s1] == lines[s1] && pre[s2] == lines[s2];
    var s := FirstIndex(pre, BeginPattern(syn, name));
    assert s <= s1;
    var t := LastIndex(pre, BeginPattern(syn, name));
    assert t.Some? && t.value >= s2;
  }

  /** A line carrying both markers of `name`, with no marker of `name` above
      it, is a region `getsection` reads as empty, while `setsection` raises:
      its end test fires on that line before the begin marker is recorded. */
  lemma {:induction false} SingleLineRegion(syn: Syntax, x: Lines, line: Line, y: Lines, name: string, code: Lines)
    requires Clear(syn, x, name)
    requires IsBegin(syn, line, name) && IsEnd(syn, line, name)
    ensures GetSection(syn, x + [line] + y, name) == Ok([])
    ensures SetSection(syn, x + [line] + y, name, code) == Fail(SectionStartMissing(name))
  {
    var lines := x + [line] + y;
    assert lines[|x|] == line;
    assert forall k :: 0 <= k < |x| ==> lines[k] == x[k];
    assert FirstIndex(lines, EndPattern(syn, name)) == |x|;
    assert lines[..|x|] == x;
  }
}

=== FILE: text.dfy ===
/** Strings and line buffers, with the few Python string operations the
    section engine relies on: `find`, substring containment, `strip` and
    slicing by a `find` result. */
module Text {

  import opened Outcomes

  type Line = string
  type Lines = seq<Line>

  /** `pat` occurs in `s` starting at index `i`. */
  predicate MatchAt(s: string, pat: string, i: nat) {
    i + |pat| <= |s| && s[i..i + |pat|] == pat
  }

  /** Python's `s.find(pat) != -1`. */
  predicate Contains(s: string, pat: string) {
    exists i: nat :: i <= |s| && MatchAt(s, pat, i)
  }

  /** Python's `s.find(pat)`: the first index at which `pat` occurs, or -1. */
  function Find(s: string, pat: string): (r: int)
    ensures r >= -1
    ensures r == -1 <==> !Contains(s, pat)
    ensures r >= 0 ==> MatchAt(s, pat, r) && forall k: nat :: k < r ==> !MatchAt(s, pat, k)
  {
    var r := FindFrom(s, pat, 0);
    assert r >= 0 ==> r <= |s| && MatchAt(s, pat, r);
    r
  }

  function FindFrom(s: string, pat: string, from: nat): (r: int)
    requires from <= |s|
    ensures r >= -1
    ensures r == -1 ==> forall k: nat :: from <= k ==> !MatchAt(s, pat, k)
    ensures r >= 0 ==> from <= r && MatchAt(s, pat, r)
    ensures r >= 0 ==> forall k: nat :: from <= k < r ==> !MatchAt(s, pat, k)
    decreases |s| - from
  {
    if from + |pat| > |s| then -1
    else if s[from..from + |pat|] == pat then from
    else FindFrom(s, pat, from + 1)
  }

  /** A line that contains `p + q` contains `p`. */
  lemma {:induction false} ContainsPrefixOf(s: string, p: string, q: string)
    requires Contains(s, p + q)
    ensures Contains(s, p)
  {
    var i: nat :| i <= |s| && MatchAt(s, p + q, i);
    assert s[i..i + |p|] == (p + q)[..|p|] == p;
    assert MatchAt(s, p, i);
  }

  /** An occurrence of `p` at `i` puts its first and last characters there. */
  lemma {:induction false} MatchEnds(s: string, p: string, i: nat)
    requires |p| > 0
    ensures MatchAt(s, p, i) ==> s[i] == p[0] && s[i + |p| - 1] == p[|p| - 1]
  {
    if MatchAt(s, p, i) {
      assert s[i..i + |p|][0] == s[i];
      assert s[i..i + |p|][|p| - 1] == s[i + |p| - 1];
    }
  }

  /** The characters Python 2's `unicode.strip()` removes (`isspace`). */
  predicate IsSpace(c: char) {
    var n := c as int;
    n == 0x20 || 0x09 <= n <= 0x0d || 0x1c <= n <= 0x1f || n == 0x85 || n == 0xa0
    || n == 0x1680 || n == 0x180e || 0x2000 <= n <= 0x200a || n == 0x2028 || n == 0x2029
    || n == 0x202f || n == 0x205f || n == 0x3000
  }

  predicate AllSpace(s: string) {
    forall k :: 0 <= k < |s| ==> IsSpace(s[k])
  }

  /** `s.lstrip()`: the suffix left after dropping leading whitespace. */
  function StripLeft(s: string): (r: string)
    ensures |r| <= |s| && r == s[|s| - |r|..]
    ensures |r| > 0 ==> !IsSpace(r[0])
  {
    if |s| > 0 && IsSpace(s[0]) then StripLeft(s[1..]) else s
  }

  /** `s.rstrip()`: the prefix left after dropping trailing whitespace. */
  function StripRight(s: string): (r: string)
    ensures |r| <= |s| && r == s[..|r|]
    ensures |r| > 0 ==> !IsSpace(r[|r| - 1])
  {
    if |s| > 0 && IsSpace(s[|s| - 1]) then StripRight(s[..|s| - 1]) else s
  }

  /** `s.strip()`: no whitespace at either end of the result. */
  function Strip(s: string): (r: string)
    ensures |r| <= |s|
    ensures |r| > 0 ==> !IsSpace(r[0]) && !IsSpace(r[|r| - 1])
  {
    var l := StripLeft(s);
    var r := StripRight(l);
    assert |r| > 0 ==> r[0] == l[0];
    r
  }

  /** What `lstrip` drops is whitespace. */
  lemma {:induction false} StripLeftDrops(s: string)
    ensures AllSpace(s[..|s| - |StripLeft(s)|])
    decreases |s|
  {
    if |s| > 0 && IsSpace(s[0]) {
      var r := StripLeft(s[1..]);
      StripLeftDrops(s[1..]);
      assert forall k :: 1 <= k < |s| - |r| ==> s[k] == s[1..][..|s| - 1 - |r|][k - 1];
    }
  }

  /** What `rstrip` drops is whitespace. */
  lemma {:induction false} StripRightDrops(s: string)
    ensures AllSpace(s[|StripRight(s)|..])
    decreases |s|
  {
    if |s| > 0 && IsSpace(s[|s| - 1]) {
      var r := StripRight(s[..|s| - 1]);
      StripRightDrops(s[..|s| - 1]);
      assert s[|r|..] == s[..|s| - 1][|r|..] + [s[|s| - 1]];
    }
  }

  /** `s.strip()` is the infix of `s` with no whitespace at either end, all
      that surrounds it being whitespace. */
  lemma {:induction false} StripInfix(s: string)
    ensures exists i, j :: 0 <= i <= j <= |s| && Strip(s) == s[i..j] && AllSpace(s[..i]) && AllSpace(s[j..])
  {
    var l := StripLeft(s);
    var r := StripRight(l);
    var i := |s| - |l|;
    var j := i + |r|;
    assert Strip(s) == s[i..j] by {
      assert l == s[i..] && r == l[..|r|];
      assert s[i..][..|r|] == s[i..j];
    }
    assert AllSpace(s[..i]) by { StripLeftDrops(s); }
    assert AllSpace(s[j..]) by {
      StripRightDrops(l);
      assert s[j..] == l[|r|..];
    }
  }

  /** Leading whitespace is exactly what `lstrip` removes. */
  lemma {:induction false} StripLeftOf(w: string, t: string)
    requires AllSpace(w)
    requires |t| > 0 ==> !IsSpace(t[0])
    ensures StripLeft(w + t) == t
    decreases |w|
  {
    if |w| == 0 {
      assert w + t == t;
    } else {
      assert (w + t)[1..] == w[1..] + t;
      StripLeftOf(w[1..], t);
    }
  }

  /** Trailing whitespace is exactly what `rstrip` removes. */
  lemma {:induction false} StripRightOf(t: string, w: string)
    requires AllSpace(w)
    requires |t| > 0 ==> !IsSpace(t[|t| - 1])
    ensures StripRight(t + w) == t
    decreases |w|
  {
    if |w| == 0 {
      assert t + w == t;
    } else {
      assert (t + w)[..|t + w| - 1] == t + w[..|w| - 1];
      StripRightOf(t, w[..|w| - 1]);
    }
  }

  /** `s.strip()` of a string padded with whitespace around a core that
      neither starts nor ends with whitespace is that core. */
  lemma {:induction false} StripOf(w1: string, t: string, w2: string)
    requires AllSpace(w1) && AllSpace(w2)
    requires |t| > 0 ==> !IsSpace(t[0]) && !IsSpace(t[|t| - 1])
    ensures Strip(w1 + t + w2) == t
  {
    if |t| == 0 {
      assert AllSpace(w1 + w2);
      assert w1 + t + w2 == (w1 + w2) + "";
      StripLeftOf(w1 + w2, "");
      assert StripRight("") == "";
    } else {
      assert w1 + t + w2 == w1 + (t + w2);
      StripLeftOf(w1, t + w2);
      StripRightOf(t, w2);
    }
  }

  /** Python's `s[:k]` where `k` is a `find` result: -1 drops the last character. */
  function SliceTo(s: string, k: int): (r: string)
    requires -1 <= k <= |s|
    ensures k >= 0 ==> r == s[..k]
    ensures k == -1 ==> |r| == if |s| == 0 then 0 else |s| - 1
    ensures r == s[..|r|]
  {
    if k >= 0 then s[..k]
    else if |s| == 0 then s
    else s[..|s| - 1]
  }

  /** `"".join(lines)`: what `writelines` puts in a file. */
  function Concat(lines: Lines): string {
    if |lines| == 0 then "" else lines[0] + Concat(lines[1..])
  }

  /** Number of occurrences of `c` in `s`. */
  function CountChar(s: string, c: char): nat {
    if |s| == 0 then 0 else (if s[0] == c then 1 else 0) + CountChar(s[1..], c)
  }

  /** Index of the first line containing `pat`, or `|lines|` when there is none. */
  function FirstIndex(lines: Lines, pat: string): (r: nat)
    ensures r <= |lines|
    ensures r < |lines| ==> Contains(lines[r], pat)
    ensures forall k :: 0 <= k < r ==> !Contains(lines[k], pat)
  {
    if |lines| == 0 then 0
    else if Contains(lines[0], pat) then 0
    else 1 + FirstIndex(lines[1..], pat)
  }

  /** Index of the last line containing `pat`, if any. */
  function LastIndex(lines: Lines, pat: string): (r: Option<nat>)
    ensures r.Some? ==> r.value < |lines| && Contains(lines[r.value], pat)
    ensures r.Some? ==> forall k :: r.value < k < |lines| ==> !Contains(lines[k], pat)
    ensures r.None? ==> forall k :: 0 <= k < |lines| ==> !Contains(lines[k], pat)
  {
    if |lines| == 0 then None
    else if Contains(lines[|lines| - 1], pat) then Some(|lines| - 1)
    else LastIndex(lines[..|lines| - 1], pat)
  }

  /** Lines free of `pat` in front of a buffer shift its first match. */
  lemma {:induction false} FirstIndexSkip(a: Lines, b: Lines, pat: string)
    requires forall k :: 0 <= k < |a| ==> !Contains(a[k], pat)
    ensures FirstIndex(a + b, pat) == |a| + FirstIndex(b, pat)
    decreases |a|
  {
    if |a| > 0 {
      assert (a + b)[0] == a[0];
      assert (a + b)[1..] == a[1..] + b;
      FirstIndexSkip(a[1..], b, pat);
    } else {
      assert a + b == b;
    }
  }

  /** Lines free of `pat` behind a buffer leave its last match alone. */
  lemma {:induction false} LastIndexSkip(a: Lines, b: Lines, pat: string)
    requires forall k :: 0 <= k < |b| ==> !Contains(b[k], pat)
    ensures LastIndex(a + b, pat) == LastIndex(a, pat)
    decreases |b|
  {
    if |b| > 0 {
      assert (a + b)[|a + b| - 1] == b[|b| - 1];
      assert (a + b)[..|a + b| - 1] == a + b[..|b| - 1];
      LastIndexSkip(a, b[..|b| - 1], pat);
    } else {
      assert a + b == a;
    }
  }

  /** A pattern that starts and ends with visible characters and is longer
      than the visible core of a whitespace-padded string does not occur in it. */
  lemma {:induction false} PaddedNotContained(w1: string, core: string, w2: string, p: string)
    requires AllSpace(w1) && AllSpace(w2)
    requires |p| > |core| && !IsSpace(p[0]) && !IsSpace(p[|p| - 1])
    ensures !Contains(w1 + core + w2, p)
  {
    var s := w1 + core + w2;
    assert forall k :: 0 <= k < |w1| ==> s[k] == w1[k];
    assert forall k :: |w1| + |core| <= k < |s| ==> s[k] == w2[k - |w1| - |core|];
    forall i: nat | i <= |s|
      ensures !MatchAt(s, p, i)
    {
      MatchEnds(s, p, i);
    }
  }
}
